=== FILE: README.md ===
# hfile scanner: a Dafny model

This project models the lookup cursor of the `hfile` Go package (`scanner.go`)
and the synthetic test data it is exercised with (`testdata.go`), and proves
what a lookup returns.

- **Bytes** (`bytes.dfy`) models Go's `bytes.Compare` and the big-endian
  `Uint32`/`PutUint32` of `encoding/binary`. It proves that `Compare` is a
  total order and that, for strings of one length, byte order is the numeric
  order of their big-endian values.
- **BlockFormat** (`block_format.dfy`) describes a decoded data block: an
  8-byte header, then records `[keyLen u32][valLen u32][key][value]`.
  - `Framed`/`Parse` give the records the scan loop walks from an offset.
  - `EncodeRecords` is the layout a writer produces.
  - Reading back what a writer laid out gives the records written, except a
    final record whose key and value are both empty. That record takes
    exactly 8 bytes, and the loop only looks at a record while more than 8
    bytes remain.
- **RecordLookup** (`record_lookup.dfy`) defines `Lookup`, the in-block scan
  over records instead of bytes.
  - First mode stops at the first equal key. All mode collects every equal
    key. Both stop before the first greater key.
  - Proved on sorted blocks: the values found are exactly the values stored
    under the key, the first match is the first such value, and resuming from
    the cursor loses nothing a later, greater query needs.
- **BlockScan** (`block_scan.dfy`) holds `GetValuesFromBuffer`, the byte-level
  loop of `getValuesFromBuffer`.
  - It is proved equal to the function `ScanLoop`.
  - `ScanLoop` is proved to compute `Lookup` over the parsed records, and to
    leave the cursor just past the records that lookup consumed.
- **Scanning** (`scanner.dfy`) models the `Scanner` state machine as a class
  with the fields `idx`, `block`, `pos`, the order state and
  `enforceKeyOrder`. Its methods `Reset`, `Release`, `BlockFor`, `GetFirst`
  and `GetAll` are proved to perform the pure transitions `Locate`,
  `QueryFirst` and `QueryAll`.
  - The reader is abstracted as a block index plus, for each block, either
    its decoded bytes or a fetch failure.
- **Sessions** (`session.dfy`) takes a file whose blocks are sorted and
  indexed by their first keys.
  - It proves that a run of `GetFirst`/`GetAll` calls with strictly
    increasing keys answers each call as a lookup over the whole file would.
  - The cursor kept between calls never hides a record.
- **TestData** (`test_data.dfy`) models `MockKeyInt`, `MockValueInt`,
  `MockMultiValueInt`, `MockValueForMockKey` and `WriteMockIntPairs`.
  - The last one drives a `Writer` class whose `Write` appends a pair or
    fails.
  - Proved: the round trip of keys and values, the key order, and the exact
    pair stream with its count. On a failed write, the writer holds exactly
    the pairs before the failing one.
- **Scenarios** (`scenarios.dfy`) states the round-trip scenarios of
  `writer_test.go` against the scanner: `TestRoundTrip`,
  `TestMultiValueRoundTripCompressed` and `TestBigRoundTripCompressed`.
  - Each scenario holds for any indexed reader whose records are the pairs
    the test wrote.
  - `OneBlockIndexed` and `MockFileExists` show such readers exist.

Two behaviours of the code shape the model:

- `blockFor` tests `index[idx].IsAfter(key)` (scanner.go:45) whether or not a
  block is loaded, so it does so on a fresh or reset scanner at index 0 too.
- `getValuesFromBuffer` (scanner.go:85-120) trusts the length fields of a
  block. The model assumes every block is well framed (`Reader.Valid`); what
  the code does on a malformed block is listed under "Left out".

## Model

| member | source | states |
|---|---|---|
| Bytes.Compare | scanner.go:94 | `bytes.Compare` answers -1, 0 or +1, and 0 only for strings of one length; what the answer means is stated by the lemmas below |
| Bytes.CompareZeroIffEqual | scanner.go:94 | `bytes.Compare` reports 0 exactly for equal byte strings |
| Bytes.CompareAntisymmetric | scanner.go:94 | swapping the operands negates the comparison |
| Bytes.CompareTransitive | scanner.go:94 | byte order is transitive, and a chain that compares equal end to end is equal throughout |
| Bytes.LessTransitive | scanner.go:94 | a strict step in a chain of byte-order steps makes the whole chain strict |
| Bytes.CompareTotal | scanner.go:94 | any two byte strings are equal or ordered one way |
| Bytes.Uint32 | scanner.go:91-92 | `BigEndian.Uint32` reads a number below 2^32 from the first four bytes; `Uint32OfPut` and `PutOfUint32` make it the inverse of `PutUint32` |
| Bytes.PutUint32 | testdata.go:12 | `BigEndian.PutUint32` writes a number below 2^32 as four bytes; `Uint32OfPut` and `PutOfUint32` make it the inverse of `Uint32` |
| Bytes.Uint32OfPut | testdata.go:12 | `BigEndian.Uint32` reads back the number `PutUint32` wrote, for every uint32 |
| Bytes.PutOfUint32 | scanner.go:91-92 | every 4-byte field holds a uint32, and writing it back gives the same 4 bytes |
| Bytes.BeValueOfBytes | testdata.go:12 | the big-endian value of the n bytes written for x is x, when x fits in n bytes |
| Bytes.BytesOfBeValue | scanner.go:91-92 | writing back the value of n bytes as n bytes gives the same bytes |
| Bytes.CompareIsNumericOrder | testdata.go:10-14 | for strings of one length, `Compare` is the comparison of their big-endian values |
| Bytes.SameWidthOrder | testdata.go:10-14 | for strings of one length, byte order and equality are the numeric order and equality of their values |
| BlockFormat.DecodeRecordAt | scanner.go:91-103 | at a record a writer laid out, the length fields, key slice and value slice read back as that record |
| BlockFormat.ParseCons | scanner.go:90-115 | one step of the loop over a record a writer laid out yields that record and moves past it |
| BlockFormat.ParseEncoded | scanner.go:90-115 | the loop over a writer's record area reaches exactly the records written, dropping only a final empty key with an empty value |
| BlockFormat.VisibleCons | scanner.go:90 | putting a record in front commutes with what the loop can see, unless it becomes the last, invisible one |
| RecordLookup.Lookup | scanner.go:90-119 | consumed records never have a greater key; an unfinished scan stops at a greater key; a first-mode hit is the first record with the key and the cursor is just past it |
| RecordLookup.ValuesForFlatten | scanner.go:49 | when only block n can hold a key, the whole file holds exactly block n's values for it |
| RecordLookup.LookupAllCollects | scanner.go:109-112 | on a sorted block, all mode returns no hit and collects exactly the values stored under the key, in block order |
| RecordLookup.LookupFirstIsHead | scanner.go:97-108 | on a sorted block, first mode finds a value if and only if the key is stored, and it is the first value stored |
| RecordLookup.ResumeAfter | scanner.go:106-118 | the records behind the new cursor hold no value for any greater key |
| RecordLookup.RepeatFirst | scanner.go:105-107 | after a first-mode hit, the values left behind the cursor are the remaining values for the key |
| RecordLookup.RepeatAll | scanner.go:110-112 | on a sorted block, after an all-mode scan no value for the key is left behind the cursor |
| BlockScan.ScanLoop | scanner.go:88-119 | the returned offset never moves backwards, stays inside the block and stays on a record boundary |
| BlockScan.GetValuesFromBuffer | scanner.go:85-120 | the loop returns the value, the collected values, `found` and the offset that `ScanLoop` specifies |
| BlockScan.ScanLoopLookup | scanner.go:90-119 | the scan returns the first-mode lookup's value, the all-mode lookup's values, and `found` as hit-or-non-empty |
| BlockScan.ScanLoopCursor | scanner.go:103-118 | the offset written back is exactly past the records the lookup consumed |
| Scanning.IndexEntry.IsAfter | scanner.go:45 | a block's index entry is after a key exactly when the key sorts strictly before the block's first key, so the block cannot hold it |
| Scanning.LastNotAfter | scanner.go:49 | the index entry picked is not after the key (unless it is entry 0), and every later entry is after it |
| Scanning.Reader.FindBlock | scanner.go:49 | a valid block index whose first key is not after the key (unless it is 0), with every later block after it |
| Scanning.Reader.GetBlockBuf | scanner.go:52-55 | either the well-framed bytes of block n, or that block's error when it cannot be fetched |
| Scanning.OrderedOps.CheckIfKeyOutOfOrder | scanner.go:38-43 | fails if and only if the key is below the last key, naming both; otherwise the key becomes the last key |
| Scanning.OrderedOps.ResetState | scanner.go:34 | resetting forgets the last key, so that the next key of any value is in order |
| Scanning.Locate | scanner.go:37-63 | an out-of-order key fails first and changes nothing; an index entry after the key gives no block, no error and no load; a load happens only for a different block or when none is loaded, and puts the cursor at 8; with the found block already loaded the outcome is a block to scan from the unchanged cursor; a failed load returns the error and keeps the cursor |
| Scanning.QueryFirst | scanner.go:65-72 | without a block: not found, with blockFor's error; with one: the first-mode lookup from the cursor, and the cursor moved forward past the records consumed |
| Scanning.QueryAll | scanner.go:74-83 | without a block: no values, with blockFor's error; with one: the all-mode lookup's values from the cursor, and the cursor moved forward past the records consumed |
| Scanning.Scanner.constructor | scanner.go:22-28 | a new scanner is idle with key-order enforcement on |
| Scanning.Scanner.Reset | scanner.go:30-35 | the scanner returns to block 0 with no block, no offset and no remembered key |
| Scanning.Scanner.Release | scanner.go:122-123 | releasing resets the scanner |
| Scanning.Scanner.BlockFor | scanner.go:37-63 | the method performs `Locate` on the scanner's state and returns its block, error and readiness |
| Scanning.Scanner.GetFirst | scanner.go:65-72 | the method performs `QueryFirst` on the scanner's state and returns its value, error and `found` |
| Scanning.Scanner.GetAll | scanner.go:74-83 | the method performs `QueryAll` on the scanner's state and returns its values and error |
| Sessions.OtherBlockEmpty | scanner.go:49 | in an indexed file, a block other than the one found for a key holds no value for it |
| Sessions.ValuesInFoundBlock | scanner.go:49 | in an indexed file, all the values for a key are in the block FindBlock picks |
| Sessions.IdleTracks | scanner.go:22-35 | a new or reset scanner starts a query session |
| Sessions.ResumableLater | scanner.go:51 | a block kept loaded can still be resumed for a later key |
| Sessions.ResumableAfterLookup | scanner.go:103-118 | moving the cursor past the consumed records keeps the block resumable for keys past the query |
| Sessions.LocateInSession | scanner.go:37-63 | on an indexed file (every block fetchable, no key across two blocks) and for increasing keys, blockFor never fails; it gives no block only when the file holds no value for the key, and otherwise a block that holds all of them from the cursor on |
| Sessions.QueryAllInSession | scanner.go:74-83 | on an indexed file (every block fetchable, no key across two blocks) and for increasing keys, GetAll returns no error and exactly the file's values for the key in file order, and the session continues |
| Sessions.QueryFirstInSession | scanner.go:65-72 | on an indexed file (every block fetchable, no key across two blocks) and for increasing keys, GetFirst returns no error, finds a value if and only if the file holds one, returns the file's first value, and the session continues |
| TestData.MockKeyInt | testdata.go:10-14 | 4 bytes holding `uint32(i)`, i.e. i modulo 2^32, big-endian |
| TestData.Digits | testdata.go:21 | at least one decimal digit, with no leading zero |
| TestData.DigitsRoundTrip | testdata.go:21 | reading back the decimal digits of n gives n |
| TestData.DecimalRoundTrip | testdata.go:20-25 | reading back `%d` of any int, negative ones included, gives it back |
| TestData.DecimalInjective | testdata.go:20-25 | two ints have the same `%d` form if and only if they are equal |
| TestData.MockValueInt | testdata.go:20-22 | the value for i is "value-for-" followed by the `%d` form of i; `MockValueRoundTrip` and `MockValueInjective` state that it names i and no other number |
| TestData.MockMultiValueInt | testdata.go:23-25 | the multi value for (i, k) is "value-for-", `%d` of i, '-', `%d` of k; `MockMultiValueDistinct` states that it identifies (i, k) and never equals a single value |
| TestData.MockValueForMockKey | testdata.go:16-18 | the value returned names the number that the key's first four bytes spell, and those four bytes are that number's mock key; `MockKeyRoundTrip` states the round trip from a number |
| TestData.MockValueRoundTrip | testdata.go:20-22 | the value made for i names i |
| TestData.MockValueInjective | testdata.go:20-22 | distinct numbers get distinct values, and equal ones equal values |
| TestData.MockMultiValueDistinct | testdata.go:20-25 | multi values are equal if and only if both numbers are, and never equal a single value |
| TestData.MockKeyRoundTrip | testdata.go:10-18 | for i in uint32 range the key decodes to i, and `MockValueForMockKey` of it is `MockValueInt(i)` |
| TestData.MockKeyWraps | testdata.go:12 | i and i + 2^32 get the same key |
| TestData.MockKeyInjective | testdata.go:10-14 | within uint32 range, distinct numbers get distinct keys |
| TestData.MockKeyOrder | testdata.go:10-14 | within uint32 range, keys sort in byte order exactly as their numbers do |
| TestData.PairsFor | testdata.go:48-57 | key number i gets three pairs in multi mode when odd, one otherwise, all under `MockKeyInt(i)` |
| TestData.MockPairs | testdata.go:44-58 | the pairs for keyCount keys, in write order, at least one per key; `MockPairsCount`, `MockPairsValues` and `MockPairsSorted` state their exact count, the values under each key and their key order |
| TestData.MockPairsCount | testdata.go:44-58 | keyCount pairs, plus two per odd key in multi mode |
| TestData.MockPairsPrefix | testdata.go:44 | the pairs for fewer keys are a prefix of the pairs for more |
| TestData.MockPairsBelow | testdata.go:44-58 | every key written for numbers below n sorts before `MockKeyInt(n)` |
| TestData.MockPairsKeys | testdata.go:50-55 | every key written is 4 bytes |
| TestData.MockPairsFit | testdata.go:44-58 | for fewer than 2^31 keys every pair fits a block's u32 length fields |
| TestData.MockPairsSorted | testdata.go:44-58 | for at most 2^32 keys the pairs are written in non-decreasing key order |
| TestData.MockPairsValues | testdata.go:44-58 | under key i the pairs hold exactly i's values in write order if i < keyCount, and none otherwise |
| TestData.PairsForValues | testdata.go:48-57 | key number i's pairs hold exactly its values, in order |
| TestData.Writer.Write | testdata.go:50-56 | a write appends the pair, or fails naming it and changes nothing |
| TestData.Writer.Close | testdata.go:65 | closing keeps the pairs written |
| TestData.FailurePoint | testdata.go:48-57 | a write failing among key i's pairs fails among the pairs for all the keys |
| TestData.WriteKeyPairs | testdata.go:48-58 | one turn writes key i's pairs in order, or stops at the first failed write holding the pairs before it |
| TestData.WriteMockIntPairs | testdata.go:43-67 | on success the writer holds exactly the pairs for keys 0 .. keyCount - 1 in order and is closed; on failure it holds the pairs before the failed one, the error names that pair, and the writer is not closed |
| Scenarios.IntPairsValues | writer_test.go:20-29 | under `keyI(i)` a test's pairs hold exactly the values listed for i, in write order |
| Scenarios.IntPairsSorted | writer_test.go:20-29 | pairs written with non-decreasing key numbers are sorted |
| Scenarios.OneBlockIndexed | writer_test.go:20-35 | any sorted non-empty list of pairs whose pairs fit the u32 length fields and whose last pair is not the empty one is the content of an indexed file |
| Scenarios.SingleBlockIndexed | writer_test.go:20-35 | a valid one-block file whose sorted records start at its index key is indexed and holds those records |
| Scenarios.RoundTripFile | writer_test.go:46-51 | the file holds `valI(3)` under `keyI(3)` and nothing under `keyI(5)` |
| Scenarios.RoundTrip | writer_test.go:46-61 | `GetFirst(keyI(3))` finds `valI(3)` and `GetFirst(keyI(5))` finds nothing, both without error |
| Scenarios.MultiValueFile30 | writer_test.go:80-85 | the file holds `valI(30)`, `valI(31)`, `valI(32)` under `keyI(30)`, in that order |
| Scenarios.MultiValueFile40And50 | writer_test.go:80-85 | the file holds `valI(40)` alone under `keyI(40)` and nothing under `keyI(50)` |
| Scenarios.MultiValueRoundTrip | writer_test.go:80-101 | `GetAll` returns the three values for key 30 in order, the one for key 40 and none for key 50, all without error |
| Scenarios.MockFileExists | testdata.go:43-67 | the pairs written for 0 < keyCount < 2^31 keys make up an indexed file holding exactly them |
| Scenarios.BigRoundTrip | writer_test.go:103-118 | in a file of keys 0 to 999999, `GetFirst(keyI(501))` finds `valI(501)` without error |
| Scenarios.SpanningKeyLost | scanner.go:45-62 | on a sorted two-block file whose key [2] has a record in each block, GetAll for [2] returns only the second block's value and GetFirst returns the second value, while the file holds both |

## Left out

- The hand-off of a released scanner to the reader's pool (scanner.go:124-127) is a non-blocking channel send. It is not modelled; `Release` only resets the scanner.
- The buffer sizing in `NewScanner` (scanner.go:24-26) is a floating-point estimate (and a division by zero for an empty index, see `Scanning.Reader.Valid` below). The buffer is a capacity hint passed to `GetBlockBuf`, so the constructor takes any buffer.
- Scanning.Reader.FindBlock: the reader's search is not part of this model. The model returns the last index entry whose first key is not after the key, or entry 0, and ignores the hint.
- Scanning.Reader.GetBlockBuf: fetching and decompressing a block (compression codecs, I/O) is not part of this model. A block either yields fixed decoded bytes or fails with an error naming it.
- Scanning.Locate: after a failed fetch the model keeps the loaded block's bytes, because a block is an immutable sequence here. In Go, `s.block` is the slice `GetBlockBuf` decoded into the scanner's shared buffer `s.buf` (scanner.go:52, 59). The bytes stay as they were only if `GetBlockBuf` does not write into that buffer before it fails. Otherwise the next query that keeps the block (scanner.go:51) scans other bytes. Aliasing of `s.buf` is not modelled.
- Scanning.Reader.Valid: requires a non-empty block index. With an empty index the Go code indexes `s.reader.index[s.idx]` out of range on every lookup (scanner.go:45), and `NewScanner` on a compressed reader divides by `len(r.index)` (scanner.go:25). So a lookup in an empty file panics rather than reporting a missing key. Whether the reader ever accepts an empty index is not part of this model.
- `IsAfter`, `CheckIfKeyOutOfOrder` and `ResetState` are not part of this model as source. They are given the meanings their names and their use in scanner.go imply.
- Malformed blocks are not modelled: `Reader.Valid` requires every block to be well framed. On a malformed block the Go loop may panic when a key or value slice runs past the buffer's capacity (scanner.go:94, 101).
- On a malformed block the Go loop may also read key bytes past the block's length but within its capacity (scanner.go:94), because slicing checks the capacity only.
- On a malformed block a skipped record whose lengths overrun the block ends the loop (scanner.go:114, 90) and writes back a cursor past the block's end (scanner.go:118), without panicking.
- BlockScan.GetValuesFromBuffer takes the cursor offset by value and returns the new offset, rather than writing through a pointer. The copy of the value the Go code makes is not modelled, since byte sequences are immutable here.
- Sessions.LocateInSession, Sessions.QueryAllInSession, Sessions.QueryFirstInSession: proved only for indexed files. In an indexed file every block can be fetched, so the "no error" these lemmas state holds because a failed fetch is ruled out by hypothesis; what a failed fetch does is stated by `Scanning.Locate`. Each block's keys also lie between its index key and the next one, so no key's records span two blocks. Outside that case the code answers differently: blockFor goes to the last block whose first key is not after the key, so values of that key in an earlier block are lost (`Scenarios.SpanningKeyLost`, see "Findings").
- Sessions.LocateInSession, Sessions.QueryAllInSession, Sessions.QueryFirstInSession: proved only for strictly increasing query keys. A repeated equal key resumes from the cursor the previous query left, behind the records it consumed. After GetFirst that yields the next duplicate (`RecordLookup.RepeatFirst`). After GetAll it yields nothing (`RecordLookup.RepeatAll`). So the answer is not a lookup over the whole file.
- TestData.MockValueForMockKey: requires a key of at least 4 bytes. `binary.BigEndian.Uint32` panics on a shorter key (testdata.go:17), and that panic is not modelled.
- TestData.Writer.Write: whether a write fails is left open, because the real writer's failures (I/O, block flushing) are not part of this model. A failed write adds nothing.
- Writing the file itself (block splitting, block size, compression, the trailer) is not part of this model. So `TestRoundTripCompressed` is the same scenario as `TestRoundTrip` (`Scenarios.RoundTrip`), and every scenario takes any indexed reader holding the written pairs.
- Scenarios.MockFileExists: proved only for fewer than 2^31 keys and a one-block file. The bound 2^31 is a proof bound: `MockPairsFit` is proved below it, from a digit count no larger than the number itself. Every pair the Go code can write fits its u32 length fields, since a mock value is at most about 31 bytes.
- `GenerateMockHfile` and `GenerateMockMultiHfile` (testdata.go:27-41) create a local file, and are not modelled.
- The progress printing of `WriteMockIntPairs` (testdata.go:45-47, 61-63) is console output, and is not modelled. The `progress` parameter is accepted and unused.
- The inner three-write loop of `WriteMockIntPairs` is modelled in `WriteKeyPairs`, one call per key.

## Findings

| source | as written | input that shows it | evidently intended | confidence | as-written member | corrected member |
|---|---|---|---|---|---|---|
| scanner.go:45-62 | blockFor scans only the last block whose first key is not after the key, from its start; a key whose records continue from the previous block loses the earlier values | index keys [1], [2]; blocks ([1]→[10], [2]→[20]) and ([2]→[21]); `GetAll([2])` returns [[21]] and `GetFirst([2])` returns [21], while the file holds [[20], [21]] | every value of a key is found, and GetFirst returns the first one written; this holds when the writer never splits a key's records over two blocks, which is the `Indexed` discipline the model proves the scanner correct under | plausible, not executed; the reader's FindBlock and the writer's block splitting are not part of this model | Scenarios.SpanningKeyLost | Sessions.QueryAllInSession |

=== FILE: block_format.dfy ===
/**
 * The layout of a decoded data block: an 8-byte header, then records laid out
 * as `[keyLen u32 BE][valLen u32 BE][key][value]` up to the end of the block.
 * `Framed` and `Parse` describe the records as the scan loop of
 * scanner.go walks them; `EncodeRecords` is the layout a writer produces.
 */
module BlockFormat {
  import opened Bytes

  /** Records start after the block header. */
  const HeaderSize: nat := 8

  datatype Record = Record(key: seq<Byte>, value: seq<Byte>)

  /** Both lengths fit the u32 length fields. */
  predicate Fits(r: Record)
  {
    |r.key| < TwoTo32 && |r.value| < TwoTo32
  }

  predicate AllFit(rs: seq<Record>)
  {
    forall j :: 0 <= j < |rs| ==> Fits(rs[j])
  }

  function EncodeRecord(r: Record): (e: seq<Byte>)
    requires Fits(r)
    ensures |e| == RecordSize(r)
  {
    PutUint32(|r.key|) + PutUint32(|r.value|) + r.key + r.value
  }

  /** The record area of a block holding `rs`, in order. */
  function EncodeRecords(rs: seq<Record>): (e: seq<Byte>)
    requires AllFit(rs)
    ensures e == [] <==> rs == []
  {
    if rs == [] then [] else EncodeRecord(rs[0]) + EncodeRecords(rs[1..])
  }

  /** Bytes one record takes in a block: its two 4-byte length fields, its key and its value. */
  function RecordSize(r: Record): (n: nat)
  {
    8 + |r.key| + |r.value|
  }

  /** The key length field of the record at offset i. */
  function KeyLenAt(buf: seq<Byte>, i: nat): (len: nat)
    requires i + 8 <= |buf|
  {
    Uint32(buf[i..i + 4])
  }

  /** The value length field of the record at offset i. */
  function ValLenAt(buf: seq<Byte>, i: nat): (len: nat)
    requires i + 8 <= |buf|
  {
    Uint32(buf[i + 4..i + 8])
  }

  /** The offset just past the record at offset i, by its length fields. */
  function RecordEnd(buf: seq<Byte>, i: nat): (end: nat)
    requires i + 8 <= |buf|
  {
    i + 8 + KeyLenAt(buf, i) + ValLenAt(buf, i)
  }

  /**
   * Every record the scan loop can reach from offset i lies inside buf. The
   * loop examines a record only while more than 8 bytes remain, so up to 8
   * trailing bytes are never read.
   */
  predicate Framed(buf: seq<Byte>, i: nat)
    decreases |buf| - i
  {
    i <= |buf| &&
    (|buf| - i > 8 ==>
      RecordEnd(buf, i) <= |buf| && Framed(buf, RecordEnd(buf, i)))
  }

  /** The records the scan loop reaches from offset i, in block order. */
  function Parse(buf: seq<Byte>, i: nat): (rs: seq<Record>)
    requires Framed(buf, i)
    decreases |buf| - i
  {
    if |buf| - i > 8 then
      var keyEnd := i + 8 + KeyLenAt(buf, i);
      [Record(buf[i + 8..keyEnd], buf[keyEnd..RecordEnd(buf, i)])] + Parse(buf, RecordEnd(buf, i))
    else
      []
  }

  /**
   * The records of `rs` that the scan loop can see once they are encoded: all
   * of them, except a last record whose key and value are both empty (it takes
   * exactly 8 bytes, and the loop needs more than 8 remaining).
   */
  function Visible(rs: seq<Record>): (vs: seq<Record>)
  {
    if |rs| > 0 && rs[|rs| - 1] == Record([], []) then rs[..|rs| - 1] else rs
  }

  /** The length fields and bytes of a record encoded at offset i read back as that record. */
  lemma {:induction false} DecodeRecordAt(buf: seq<Byte>, i: nat, r: Record)
    requires Fits(r)
    requires i + RecordSize(r) <= |buf| && buf[i..i + RecordSize(r)] == EncodeRecord(r)
    ensures i + 8 <= |buf|
    ensures RecordEnd(buf, i) == i + RecordSize(r)
    ensures buf[i + 8..i + 8 + KeyLenAt(buf, i)] == r.key
    ensures buf[i + 8 + KeyLenAt(buf, i)..RecordEnd(buf, i)] == r.value
  {
    var e := EncodeRecord(r);
    var k, v := PutUint32(|r.key|), PutUint32(|r.value|);
    var n, m := i + RecordSize(r), i + 8 + |r.key|;
    EncodedParts(r);
    SliceWithin(buf, i, e, 0, 4);
    SliceWithin(buf, i, e, 4, 8);
    SliceWithin(buf, i, e, 8, 8 + |r.key|);
    SliceWithin(buf, i, e, 8 + |r.key|, |e|);
    Uint32OfPut(|r.key|);
    Uint32OfPut(|r.value|);
  }

  /** Where the four parts of an encoded record sit. */
  lemma {:induction false} EncodedParts(r: Record)
    requires Fits(r)
    ensures var e := EncodeRecord(r);
      && e[0..4] == PutUint32(|r.key|)
      && e[4..8] == PutUint32(|r.value|)
      && e[8..8 + |r.key|] == r.key
      && e[8 + |r.key|..|e|] == r.value
  {
    var k, v := PutUint32(|r.key|), PutUint32(|r.value|);
    var e := EncodeRecord(r);
    assert e == k + v + r.key + r.value;
    assert forall j :: 0 <= j < 4 ==> e[j] == k[j];
    assert forall j :: 0 <= j < 4 ==> e[4 + j] == v[j];
    assert forall j :: 0 <= j < |r.key| ==> e[8 + j] == r.key[j];
  }

  /** A slice of a part laid out at offset i is the same slice of the buffer. */
  lemma {:induction false} SliceWithin(buf: seq<Byte>, i: nat, e: seq<Byte>, a: nat, b: nat)
    requires i + |e| <= |buf| && buf[i..i + |e|] == e
    requires a <= b <= |e|
    ensures buf[i + a..i + b] == e[a..b]
  {
    forall j | 0 <= j < b - a
      ensures buf[i + a..i + b][j] == e[a..b][j]
    {
      assert buf[i + a + j] == buf[i..i + |e|][a + j];
    }
  }

  /** One step of the scan loop over a record a writer laid out at offset i. */
  lemma {:induction false} ParseCons(buf: seq<Byte>, i: nat, r: Record)
    requires Fits(r)
    requires i + RecordSize(r) <= |buf| && buf[i..i + RecordSize(r)] == EncodeRecord(r)
    requires Framed(buf, i + RecordSize(r))
    ensures Framed(buf, i)
    ensures Parse(buf, i) ==
      if |buf| - i > 8 then [r] + Parse(buf, i + RecordSize(r)) else []
  {
    DecodeRecordAt(buf, i, r);
  }

  /** Reading back a record area laid out by a writer from offset i gives the visible records. */
  lemma {:induction false} ParseEncodedAt(buf: seq<Byte>, i: nat, rs: seq<Record>)
    requires AllFit(rs)
    requires i <= |buf| && buf[i..] == EncodeRecords(rs)
    ensures Framed(buf, i)
    ensures Parse(buf, i) == Visible(rs)
    decreases |rs|
  {
    if rs == [] {
      assert |buf| == i;
    } else {
      SplitEncoded(buf, i, rs);
      ParseEncodedAt(buf, i + RecordSize(rs[0]), rs[1..]);
      ParseStep(buf, i, rs);
    }
  }

  /** The first record of an encoded area, and the area that follows it. */
  lemma {:induction false} SplitEncoded(buf: seq<Byte>, i: nat, rs: seq<Record>)
    requires AllFit(rs) && rs != []
    requires i <= |buf| && buf[i..] == EncodeRecords(rs)
    ensures AllFit(rs[1..])
    ensures i + RecordSize(rs[0]) <= |buf|
    ensures buf[i..i + RecordSize(rs[0])] == EncodeRecord(rs[0])
    ensures buf[i + RecordSize(rs[0])..] == EncodeRecords(rs[1..])
    ensures rs[1..] == [] <==> |buf| == i + RecordSize(rs[0])
  {
    assert AllFit(rs[1..]);
    SplitAt(buf, i, EncodeRecord(rs[0]), EncodeRecords(rs[1..]));
  }

  /** Bytes that follow offset i as a then b sit at i and at i + |a|. */
  lemma {:induction false} SplitAt(buf: seq<Byte>, i: nat, a: seq<Byte>, b: seq<Byte>)
    requires i <= |buf| && buf[i..] == a + b
    ensures i + |a| <= |buf|
    ensures buf[i..i + |a|] == a && buf[i + |a|..] == b
  {
    assert buf[i..i + |a|] == buf[i..][..|a|];
    assert buf[i + |a|..] == buf[i..][|a|..];
  }

  /** The inductive step of ParseEncodedAt: one more record in front. */
  lemma {:induction false} ParseStep(buf: seq<Byte>, i: nat, rs: seq<Record>)
    requires rs != [] && Fits(rs[0])
    requires i + RecordSize(rs[0]) <= |buf| && buf[i..i + RecordSize(rs[0])] == EncodeRecord(rs[0])
    requires Framed(buf, i + RecordSize(rs[0])) && Parse(buf, i + RecordSize(rs[0])) == Visible(rs[1..])
    requires rs[1..] == [] <==> |buf| == i + RecordSize(rs[0])
    ensures Framed(buf, i)
    ensures Parse(buf, i) == Visible(rs)
  {
    var r, rest := rs[0], rs[1..];
    var n := i + RecordSize(r);
    assert rs == [r] + rest;
    ParseCons(buf, i, r);
    if |buf| - i > 8 {
      assert rest == [] ==> r.key != [] || r.value != [];
      VisibleCons(r, rest);
      assert Parse(buf, i) == [r] + Parse(buf, n) == [r] + Visible(rest);
    } else {
      assert r == Record([], []) && rest == [];
      assert Parse(buf, i) == [] == Visible([r] + rest);
    }
  }

  /** Reading back the record area a writer lays out after any prefix gives the visible records. */
  lemma {:induction false} ParseEncoded(prefix: seq<Byte>, rs: seq<Record>)
    requires AllFit(rs)
    ensures Framed(prefix + EncodeRecords(rs), |prefix|)
    ensures Parse(prefix + EncodeRecords(rs), |prefix|) == Visible(rs)
  {
    var buf := prefix + EncodeRecords(rs);
    assert buf[|prefix|..] == EncodeRecords(rs);
    ParseEncodedAt(buf, |prefix|, rs);
  }

  /** Putting a record in front commutes with Visible unless it becomes the dropped last one. */
  lemma {:induction false} VisibleCons(r: Record, rest: seq<Record>)
    requires rest != [] || r != Record([], [])
    ensures Visible([r] + rest) == [r] + Visible(rest)
  {
    var rs := [r] + rest;
    if rest != [] {
      assert rs[|rs| - 1] == rest[|rest| - 1];
      assert rs[..|rs| - 1] == [r] + rest[..|rest| - 1];
    }
  }
}

=== FILE: block_scan.dfy ===
/**
 * The in-block record scan of scanner.go (`getValuesFromBuffer`): starting at
 * a cursor offset, walk the records of a decoded block, comparing keys, and
 * stop at the first match (first mode), past every match (all mode) or at the
 * first greater key. `ScanLoop` states the outcome in terms of the records the
 * loop walks (`Parse`) and the record-level `Lookup`; `GetValuesFromBuffer` is
 * the byte-level loop, proved to compute `ScanLoop`.
 */
module BlockScan {
  import opened Bytes
  import opened BlockFormat
  import opened RecordLookup

  /** What one scan returns: the first-mode value, the all-mode values, `found`, and the new cursor offset. */
  datatype ScanResult = ScanResult(value: seq<Byte>, values: seq<seq<Byte>>, found: bool, newPos: nat)

  /**
   * The loop of `getValuesFromBuffer` as a tail-recursive function over the
   * byte offset i and the values collected so far: the next record is examined
   * only while more than 8 bytes remain.
   */
  function ScanLoop(buf: seq<Byte>, i: nat, key: seq<Byte>, first: bool, acc: seq<seq<Byte>>): (s: ScanResult)
    requires Framed(buf, i)
    ensures i <= s.newPos <= |buf| && Framed(buf, s.newPos)
    decreases |buf| - i, 1
  {
    if |buf| - i <= 8 then ScanResult([], acc, |acc| > 0, i)
    else ScanRecord(buf, i, key, first, acc)
  }

  /** One turn of the loop: the record at offset i decides whether to stop, return, or go on. */
  function ScanRecord(buf: seq<Byte>, i: nat, key: seq<Byte>, first: bool, acc: seq<seq<Byte>>): (s: ScanResult)
    requires Framed(buf, i) && |buf| - i > 8
    ensures i <= s.newPos <= |buf| && Framed(buf, s.newPos)
    decreases |buf| - i, 0
  {
    var keyEnd := i + 8 + KeyLenAt(buf, i);
    var next := RecordEnd(buf, i);
    var cmp := Compare(buf[i + 8..keyEnd], key);
    if cmp > 0 then ScanResult([], acc, |acc| > 0, i)
    else if cmp == 0 && first then ScanResult(buf[keyEnd..next], [], true, next)
    else ScanLoop(buf, next, key, first, acc + if cmp == 0 then [buf[keyEnd..next]] else [])
  }

  /**
   * One turn of the loop of `GetValuesFromBuffer` that neither returns nor
   * stops: skipping a smaller key, or collecting an equal one in all mode,
   * keeps the outcome of the whole scan.
   */
  lemma {:induction false} ScanLoopNext(buf: seq<Byte>, pos: nat, i: nat, key: seq<Byte>, first: bool, acc: seq<seq<Byte>>)
    requires Framed(buf, pos) && Framed(buf, i) && |buf| - i > 8
    requires ScanLoop(buf, pos, key, first, []) == ScanLoop(buf, i, key, first, acc)
    ensures var keyEnd := i + 8 + KeyLenAt(buf, i);
      var next := RecordEnd(buf, i);
      var cmp := Compare(buf[i + 8..keyEnd], key);
      && next <= |buf| && Framed(buf, next)
      && (cmp < 0 ==> ScanLoop(buf, pos, key, first, []) == ScanLoop(buf, next, key, first, acc))
      && (cmp == 0 && !first ==>
            ScanLoop(buf, pos, key, first, []) == ScanLoop(buf, next, key, first, acc + [buf[keyEnd..next]]))
  {
    assert acc + [] == acc;
  }

  /** A turn of the loop that returns: a greater key, or a first-mode match. */
  lemma {:induction false} ScanLoopExit(buf: seq<Byte>, pos: nat, i: nat, key: seq<Byte>, first: bool, acc: seq<seq<Byte>>)
    requires Framed(buf, pos) && Framed(buf, i) && |buf| - i > 8
    requires ScanLoop(buf, pos, key, first, []) == ScanLoop(buf, i, key, first, acc)
    ensures var keyEnd := i + 8 + KeyLenAt(buf, i);
      var next := RecordEnd(buf, i);
      var cmp := Compare(buf[i + 8..keyEnd], key);
      && next <= |buf|
      && (cmp > 0 ==> ScanLoop(buf, pos, key, first, []) == ScanResult([], acc, |acc| > 0, i))
      && (cmp == 0 && first ==> ScanLoop(buf, pos, key, first, []) == ScanResult(buf[keyEnd..next], [], true, next))
  {
    var keyEnd := i + 8 + KeyLenAt(buf, i);
    var next := RecordEnd(buf, i);
    var cmp := Compare(buf[i + 8..keyEnd], key);
    assert ScanLoop(buf, i, key, first, acc) == ScanRecord(buf, i, key, first, acc);
    if cmp > 0 {
      assert ScanRecord(buf, i, key, first, acc) == ScanResult([], acc, |acc| > 0, i);
    } else if cmp == 0 && first {
      assert ScanRecord(buf, i, key, first, acc) == ScanResult(buf[keyEnd..next], [], true, next);
    }
  }

  /** The loop of `getValuesFromBuffer`: `pos` is the cursor offset on entry and `newPos` the offset written back through the cursor pointer. */
  method GetValuesFromBuffer(buf: seq<Byte>, pos: nat, key: seq<Byte>, first: bool)
    returns (value: seq<Byte>, acc: seq<seq<Byte>>, found: bool, newPos: nat)
    requires Framed(buf, pos)
    ensures ScanResult(value, acc, found, newPos) == ScanLoop(buf, pos, key, first, [])
  {
    acc := [];
    var i := pos;
    while |buf| - i > 8
      invariant pos <= i <= |buf| && Framed(buf, i)
      invariant ScanLoop(buf, pos, key, first, []) == ScanLoop(buf, i, key, first, acc)
      decreases |buf| - i
    {
      var keyLen := KeyLenAt(buf, i);
      var valLen := ValLenAt(buf, i);
      var cmp := Compare(buf[i + 8..i + 8 + keyLen], key);
      ScanLoopNext(buf, pos, i, key, first, acc);
      ScanLoopExit(buf, pos, i, key, first, acc);
      if cmp == 0 {
        i := i + 8 + keyLen;
        var ret := buf[i..i + valLen];
        i := i + valLen;
        if first {
          value, acc, found, newPos := ret, [], true, i;
          return;
        }
        acc := acc + [ret];
      } else if cmp > 0 {
        value, found, newPos := [], |acc| > 0, i;
        return;
      } else {
        i := i + 8 + keyLen + valLen;
      }
    }
    value, found, newPos := [], |acc| > 0, i;
  }

  /** The first record parsed at offset i is the one whose length fields sit at i; the rest are parsed from its end. */
  lemma {:induction false} ParseHead(buf: seq<Byte>, i: nat)
    requires Framed(buf, i) && |buf| - i > 8
    ensures var keyEnd := i + 8 + KeyLenAt(buf, i);
      var next := RecordEnd(buf, i);
      && keyEnd <= next <= |buf| && Framed(buf, next)
      && Parse(buf, i) == [Record(buf[i + 8..keyEnd], buf[keyEnd..next])] + Parse(buf, next)
  {
  }

  /**
   * What the loop returns, over the records it walks: the value of a
   * first-mode match, and the values collected before (`acc`) followed by
   * those the lookup collects.
   */
  lemma {:induction false} ScanLoopLookup(buf: seq<Byte>, i: nat, key: seq<Byte>, first: bool, acc: seq<seq<Byte>>)
    requires Framed(buf, i)
    requires first ==> acc == []
    ensures var s := ScanLoop(buf, i, key, first, acc);
      var m := Lookup(Parse(buf, i), key, first);
      && s.value == (if m.hit.Some? then m.hit.value else [])
      && s.values == acc + m.values
      && s.found == (m.hit.Some? || acc + m.values != [])
    decreases |buf| - i
  {
    if |buf| - i > 8 {
      var keyEnd := i + 8 + KeyLenAt(buf, i);
      var next := RecordEnd(buf, i);
      var r := Record(buf[i + 8..keyEnd], buf[keyEnd..next]);
      ParseHead(buf, i);
      var rs := Parse(buf, i);
      assert rs[0] == r && rs[1..] == Parse(buf, next);
      var cmp := Compare(r.key, key);
      if cmp < 0 || (cmp == 0 && !first) {
        var extra := if cmp == 0 then [r.value] else [];
        ScanLoopLookup(buf, next, key, first, acc + extra);
        LookupCons(rs, key, first);
        AppendAssoc(acc, extra, Lookup(rs[1..], key, first).values);
      }
    } else {
      assert acc + [] == acc;
    }
  }

  /**
   * Where the loop leaves the cursor: never before where it started, inside
   * the block, and exactly past the records the lookup consumed.
   */
  lemma {:induction false} ScanLoopCursor(buf: seq<Byte>, i: nat, key: seq<Byte>, first: bool, acc: seq<seq<Byte>>)
    requires Framed(buf, i)
    ensures var s := ScanLoop(buf, i, key, first, acc);
      var rs := Parse(buf, i);
      Parse(buf, s.newPos) == rs[Lookup(rs, key, first).consumed..]
    decreases |buf| - i
  {
    if |buf| - i > 8 {
      var keyEnd := i + 8 + KeyLenAt(buf, i);
      var next := RecordEnd(buf, i);
      var r := Record(buf[i + 8..keyEnd], buf[keyEnd..next]);
      ParseHead(buf, i);
      var rs := Parse(buf, i);
      assert rs[0] == r && rs[1..] == Parse(buf, next);
      var cmp := Compare(r.key, key);
      if cmp < 0 || (cmp == 0 && !first) {
        var extra := if cmp == 0 then [r.value] else [];
        ScanLoopCursor(buf, next, key, first, acc + extra);
        LookupCons(rs, key, first);
        var c := Lookup(rs[1..], key, first).consumed;
        assert rs[c + 1..] == rs[1..][c..];
      } else if cmp > 0 {
        assert ScanLoop(buf, i, key, first, acc).newPos == i;
        assert Lookup(rs, key, first).consumed == 0 && rs[0..] == rs;
      } else {
        assert ScanLoop(buf, i, key, first, acc).newPos == next;
        assert Lookup(rs, key, first).consumed == 1;
      }
    }
  }

  lemma {:induction false} AppendAssoc<T>(a: seq<T>, b: seq<T>, c: seq<T>)
    ensures (a + b) + c == a + (b + c)
  {
  }
}

=== FILE: bytes.dfy ===
/**
 * Byte strings as the scanner sees them: Go's `bytes.Compare` (unsigned,
 * byte-wise lexicographic) and the 4-byte big-endian integers of
 * `encoding/binary` (`BigEndian.Uint32`, `BigEndian.PutUint32`).
 */
module Bytes {

  /** An unsigned 8-bit byte, Go's `byte`. */
  type Byte = b: int | 0 <= b < 256

  /** Bytes in a `uint32` field. */
  const FieldWidth: nat := 4

  /** 2^32: one more than the largest `uint32`. */
  const TwoTo32: nat := 0x1_0000_0000

  /**
   * Go's `bytes.Compare(a, b)`: -1, 0 or +1. The first differing byte decides,
   * compared as unsigned; a proper prefix sorts before the longer string.
   */
  function Compare(a: seq<Byte>, b: seq<Byte>): (c: int)
    ensures -1 <= c <= 1
    ensures c == 0 ==> |a| == |b|
  {
    if a == [] then (if b == [] then 0 else -1)
    else if b == [] then 1
    else if a[0] < b[0] then -1
    else if a[0] > b[0] then 1
    else Compare(a[1..], b[1..])
  }

  /** Strictly before in byte order. */
  predicate Less(a: seq<Byte>, b: seq<Byte>)
  {
    Compare(a, b) < 0
  }

  /** Before or equal in byte order. */
  predicate LessEq(a: seq<Byte>, b: seq<Byte>)
  {
    Compare(a, b) <= 0
  }

  /** Compare reports 0 exactly for equal strings. */
  lemma {:induction false} CompareZeroIffEqual(a: seq<Byte>, b: seq<Byte>)
    ensures Compare(a, b) == 0 <==> a == b
  {
    if a != [] && b != [] && a[0] == b[0] {
      CompareZeroIffEqual(a[1..], b[1..]);
      assert a == [a[0]] + a[1..];
      assert b == [b[0]] + b[1..];
    }
  }

  /** Swapping the operands negates the comparison. */
  lemma {:induction false} CompareAntisymmetric(a: seq<Byte>, b: seq<Byte>)
    ensures Compare(b, a) == -Compare(a, b)
  {
    if a != [] && b != [] && a[0] == b[0] {
      CompareAntisymmetric(a[1..], b[1..]);
    }
  }

  /** Byte order is transitive; a chain that ends where it started is all equal. */
  lemma {:induction false} CompareTransitive(a: seq<Byte>, b: seq<Byte>, c: seq<Byte>)
    requires LessEq(a, b) && LessEq(b, c)
    ensures LessEq(a, c)
    ensures Compare(a, c) == 0 ==> Compare(a, b) == 0 && Compare(b, c) == 0
  {
    if a != [] && b != [] && c != [] && a[0] == b[0] == c[0] {
      CompareTransitive(a[1..], b[1..], c[1..]);
    }
  }

  /** Strict after non-strict (in either order) is strict. */
  lemma {:induction false} LessTransitive(a: seq<Byte>, b: seq<Byte>, c: seq<Byte>)
    requires LessEq(a, b) && LessEq(b, c)
    requires Less(a, b) || Less(b, c)
    ensures Less(a, c)
  {
    CompareTransitive(a, b, c);
  }

  /** Two distinct strings are ordered one way or the other. */
  lemma {:induction false} CompareTotal(a: seq<Byte>, b: seq<Byte>)
    ensures a == b || Less(a, b) || Less(b, a)
  {
    CompareZeroIffEqual(a, b);
    CompareAntisymmetric(a, b);
  }

  /** 256^n: the number of values an n-byte big-endian field can hold. */
  function Pow256(n: nat): (p: nat)
    ensures p >= 1
  {
    if n == 0 then 1 else 256 * Pow256(n - 1)
  }

  /** The unsigned value of a big-endian byte string, most significant byte first. */
  function BeValue(s: seq<Byte>): (v: nat)
  {
    if s == [] then 0 else BeValue(s[..|s| - 1]) * 256 + s[|s| - 1]
  }

  /** The n-byte big-endian form of x, keeping its low n bytes (a truncating cast). */
  function BeBytes(x: nat, n: nat): (s: seq<Byte>)
    ensures |s| == n
  {
    if n == 0 then [] else BeBytes(x / 256, n - 1) + [x % 256]
  }

  /** Go's `binary.BigEndian.Uint32(s)`: the first four bytes, big-endian (it panics on fewer). */
  function Uint32(s: seq<Byte>): (v: nat)
    requires |s| >= 4
    ensures v < TwoTo32
  {
    BeValueBound(s[..4]);
    BeValue(s[..4])
  }

  /** Go's `binary.BigEndian.PutUint32`: four bytes, most significant first. */
  function PutUint32(x: nat): (s: seq<Byte>)
    requires x < TwoTo32
    ensures |s| == 4
  {
    BeBytes(x, FieldWidth)
  }

  /** An n-byte big-endian value is below 256^n. */
  lemma {:induction false} BeValueBound(s: seq<Byte>)
    ensures BeValue(s) < Pow256(|s|)
    ensures |s| == 4 ==> BeValue(s) < TwoTo32
  {
    if s != [] {
      BeValueBound(s[..|s| - 1]);
    }
  }

  /** Reading back the n bytes BeBytes wrote gives x, when x fits in n bytes. */
  lemma {:induction false} BeValueOfBytes(x: nat, n: nat)
    requires x < Pow256(n)
    ensures BeValue(BeBytes(x, n)) == x
  {
    if n > 0 {
      var s := BeBytes(x, n);
      BeValueOfBytes(x / 256, n - 1);
      assert s[..|s| - 1] == BeBytes(x / 256, n - 1);
    }
  }

  /** Writing back the value of n bytes as n bytes gives the same bytes. */
  lemma {:induction false} BytesOfBeValue(s: seq<Byte>)
    ensures BeBytes(BeValue(s), |s|) == s
  {
    if s != [] {
      var n := |s| - 1;
      var v := BeValue(s[..n]);
      BytesOfBeValue(s[..n]);
      LastByte(v, s[n]);
      assert BeBytes(BeValue(s), |s|) == BeBytes(v, n) + [s[n]];
      assert s == s[..n] + [s[n]];
    }
  }

  /** Appending byte b to a big-endian value v: dividing by 256 takes it off again. */
  lemma {:induction false} LastByte(v: nat, b: Byte)
    ensures (v * 256 + b) / 256 == v && (v * 256 + b) % 256 == b
  {
  }

  /** Decoding what PutUint32 wrote gives the number back. */
  lemma {:induction false} Uint32OfPut(x: nat)
    requires x < TwoTo32
    ensures BeValue(PutUint32(x)) == x
    ensures Uint32(PutUint32(x)) == x
  {
    var s := PutUint32(x);
    assert Pow256(4) == TwoTo32;
    BeValueOfBytes(x, 4);
    assert s[..4] == s;
  }

  /** Encoding the value of four bytes gives the same four bytes back. */
  lemma {:induction false} PutOfUint32(s: seq<Byte>)
    requires |s| == 4
    ensures BeValue(s) < TwoTo32 && PutUint32(BeValue(s)) == s
  {
    BeValueBound(s);
    BytesOfBeValue(s);
  }

  /** Compare of two equal-length strings each extended by one byte. */
  lemma {:induction false} CompareSnoc(a: seq<Byte>, b: seq<Byte>, x: Byte, y: Byte)
    requires |a| == |b|
    ensures Compare(a + [x], b + [y]) ==
      if Compare(a, b) != 0 then Compare(a, b)
      else if x < y then -1 else if x > y then 1 else 0
  {
    if a != [] {
      assert (a + [x])[1..] == a[1..] + [x];
      assert (b + [y])[1..] == b[1..] + [y];
      CompareSnoc(a[1..], b[1..], x, y);
    }
  }

  /**
   * For strings of one length, byte order is numeric order of their big-endian
   * values: why 4-byte big-endian integer keys sort numerically.
   */
  lemma {:induction false} CompareIsNumericOrder(a: seq<Byte>, b: seq<Byte>)
    requires |a| == |b|
    ensures Compare(a, b) ==
      if BeValue(a) < BeValue(b) then -1 else if BeValue(a) == BeValue(b) then 0 else 1
  {
    if a != [] {
      var n := |a| - 1;
      CompareIsNumericOrder(a[..n], b[..n]);
      assert a == a[..n] + [a[n]];
      assert b == b[..n] + [b[n]];
      CompareSnoc(a[..n], b[..n], a[n], b[n]);
    }
  }

  /** For strings of one length, Less and equality are the order and equality of their big-endian values. */
  lemma {:induction false} SameWidthOrder(a: seq<Byte>, b: seq<Byte>)
    requires |a| == |b|
    ensures Less(a, b) <==> BeValue(a) < BeValue(b)
    ensures a == b <==> BeValue(a) == BeValue(b)
  {
    CompareIsNumericOrder(a, b);
    CompareZeroIffEqual(a, b);
  }
}

=== FILE: record_lookup.dfy ===
/**
 * What the in-block scan of scanner.go computes, stated over the records it
 * walks rather than over bytes: `Lookup` takes records in block order and
 * stops at the first key greater than the one sought, either at the first
 * equal key (first mode, `GetFirst`) or after collecting every equal key
 * (all mode, `GetAll`). The lemmas say what that means for a block whose keys
 * are sorted, and where the cursor is left for the next query.
 */
module RecordLookup {
  import opened Wrappers
  import opened Bytes
  import opened BlockFormat

  /** Keys never decrease along the records: the block invariant the writer keeps. */
  predicate Sorted(rs: seq<Record>)
  {
    forall a, b :: 0 <= a < b < |rs| ==> LessEq(rs[a].key, rs[b].key)
  }

  /** The values stored under `key`, in block order. */
  function ValuesFor(rs: seq<Record>, key: seq<Byte>): (vs: seq<seq<Byte>>)
  {
    if rs == [] then []
    else (if rs[0].key == key then [rs[0].value] else []) + ValuesFor(rs[1..], key)
  }

  /**
   * The outcome of one scan: the value of the first match (first mode only),
   * the values collected (all mode only), and how many records were consumed,
   * which is where the cursor is left.
   */
  datatype Match = Match(hit: Option<seq<Byte>>, values: seq<seq<Byte>>, consumed: nat)

  /**
   * The scan over records: skip smaller keys, stop before a greater key; on an
   * equal key return it (first mode) or collect it and go on (all mode).
   */
  function Lookup(rs: seq<Record>, key: seq<Byte>, first: bool): (m: Match)
    ensures m.consumed <= |rs|
    ensures first ==> m.values == []
    ensures m.hit.Some? ==> first
    // a consumed record never has a greater key ...
    ensures forall j :: 0 <= j < m.consumed ==> LessEq(rs[j].key, key)
    // ... and, unless a match ended the scan, the record at the cursor has one
    ensures m.hit.None? && m.consumed < |rs| ==> Less(key, rs[m.consumed].key)
    // a first-mode match is the first record with this key, and the cursor is just past it
    ensures m.hit.Some? ==>
      && 0 < m.consumed
      && rs[m.consumed - 1] == Record(key, m.hit.value)
      && forall j :: 0 <= j < m.consumed - 1 ==> Less(rs[j].key, key)
    decreases |rs|
  {
    if rs == [] then Match(None, [], 0)
    else
      var c := Compare(rs[0].key, key);
      CompareZeroIffEqual(rs[0].key, key);
      CompareAntisymmetric(rs[0].key, key);
      if c > 0 then Match(None, [], 0)
      else if c == 0 && first then Match(Some(rs[0].value), [], 1)
      else
        var m := Lookup(rs[1..], key, first);
        Match(m.hit, (if c == 0 then [rs[0].value] else []) + m.values, m.consumed + 1)
  }

  /** A lookup that goes past the first record is the lookup over the rest, after that record's contribution. */
  lemma {:induction false} LookupCons(rs: seq<Record>, key: seq<Byte>, first: bool)
    requires rs != []
    ensures var c := Compare(rs[0].key, key);
      var m := Lookup(rs[1..], key, first);
      c < 0 || (c == 0 && !first) ==>
        Lookup(rs, key, first) == Match(m.hit, (if c == 0 then [rs[0].value] else []) + m.values, m.consumed + 1)
  {
  }

  /** ValuesFor distributes over concatenation. */
  lemma {:induction false} ValuesForAppend(a: seq<Record>, b: seq<Record>, key: seq<Byte>)
    ensures ValuesFor(a + b, key) == ValuesFor(a, key) + ValuesFor(b, key)
  {
    if a != [] {
      assert (a + b)[1..] == a[1..] + b;
      ValuesForAppend(a[1..], b, key);
    } else {
      assert a + b == b;
    }
  }

  /** The records of several blocks, one block after the other. */
  function Flatten(blocks: seq<seq<Record>>): (rs: seq<Record>)
  {
    if blocks == [] then [] else Flatten(blocks[..|blocks| - 1]) + blocks[|blocks| - 1]
  }

  /** When only block n may hold values for `key`, the blocks together hold just those. */
  lemma {:induction false} ValuesForFlatten(blocks: seq<seq<Record>>, n: nat, key: seq<Byte>)
    requires forall m :: 0 <= m < |blocks| && m != n ==> ValuesFor(blocks[m], key) == []
    ensures ValuesFor(Flatten(blocks), key) == if n < |blocks| then ValuesFor(blocks[n], key) else []
    decreases |blocks|
  {
    if blocks != [] {
      var init, last := blocks[..|blocks| - 1], blocks[|blocks| - 1];
      assert forall m :: 0 <= m < |init| ==> init[m] == blocks[m];
      ValuesForFlatten(init, n, key);
      ValuesForAppend(Flatten(init), last, key);
      if n == |init| {
        assert [] + ValuesFor(last, key) == ValuesFor(last, key);
      } else {
        assert ValuesFor(Flatten(init), key) + [] == ValuesFor(Flatten(init), key);
      }
    }
  }

  /** Records whose keys all differ from `key` hold no value for it. */
  lemma {:induction false} ValuesForAbsent(rs: seq<Record>, key: seq<Byte>)
    requires forall j :: 0 <= j < |rs| ==> rs[j].key != key
    ensures ValuesFor(rs, key) == []
  {
    if rs != [] {
      ValuesForAbsent(rs[1..], key);
    }
  }

  /** Records whose keys are all at most `bound` hold no value for a key past it. */
  lemma {:induction false} ValuesForBelow(rs: seq<Record>, bound: seq<Byte>, key: seq<Byte>)
    requires forall j :: 0 <= j < |rs| ==> LessEq(rs[j].key, bound)
    requires Less(bound, key)
    ensures ValuesFor(rs, key) == []
  {
    forall j | 0 <= j < |rs|
      ensures rs[j].key != key
    {
      LessTransitive(rs[j].key, bound, key);
      CompareZeroIffEqual(rs[j].key, key);
    }
    ValuesForAbsent(rs, key);
  }

  /** In a sorted block, nothing at or after a key greater than `key` is stored under `key`. */
  lemma {:induction false} NoneAfterGreater(rs: seq<Record>, key: seq<Byte>)
    requires Sorted(rs)
    requires rs != [] && Less(key, rs[0].key)
    ensures ValuesFor(rs, key) == []
  {
    forall j | 0 <= j < |rs|
      ensures rs[j].key != key
    {
      if j > 0 {
        LessTransitive(key, rs[0].key, rs[j].key);
      }
      CompareZeroIffEqual(key, rs[j].key);
    }
    ValuesForAbsent(rs, key);
  }

  /** In a sorted block, all mode collects exactly the values stored under `key`, in block order. */
  lemma {:induction false} LookupAllCollects(rs: seq<Record>, key: seq<Byte>)
    requires Sorted(rs)
    ensures Lookup(rs, key, false).hit == None
    ensures Lookup(rs, key, false).values == ValuesFor(rs, key)
    decreases |rs|
  {
    if rs != [] {
      var c := Compare(rs[0].key, key);
      CompareZeroIffEqual(rs[0].key, key);
      CompareAntisymmetric(rs[0].key, key);
      if c > 0 {
        NoneAfterGreater(rs, key);
      } else {
        LookupAllCollects(rs[1..], key);
      }
    }
  }

  /**
   * In a sorted block, first mode finds a value exactly when `key` is stored,
   * and the value it finds is the first one stored under `key`.
   */
  lemma {:induction false} LookupFirstIsHead(rs: seq<Record>, key: seq<Byte>)
    requires Sorted(rs)
    ensures Lookup(rs, key, true).hit.Some? <==> ValuesFor(rs, key) != []
    ensures Lookup(rs, key, true).hit.Some? ==>
      Lookup(rs, key, true).hit.value == ValuesFor(rs, key)[0]
    decreases |rs|
  {
    if rs != [] {
      var c := Compare(rs[0].key, key);
      CompareZeroIffEqual(rs[0].key, key);
      CompareAntisymmetric(rs[0].key, key);
      if c > 0 {
        NoneAfterGreater(rs, key);
      } else if c < 0 {
        LookupFirstIsHead(rs[1..], key);
      }
    }
  }

  /**
   * Resuming from the cursor a query left behind answers a later, greater
   * query as a scan from the start would: the records it skipped hold no
   * value for the greater key.
   */
  lemma {:induction false} ResumeAfter(rs: seq<Record>, key: seq<Byte>, first: bool, next: seq<Byte>)
    requires Less(key, next)
    ensures var c := Lookup(rs, key, first).consumed;
      ValuesFor(rs[c..], next) == ValuesFor(rs, next)
  {
    var c := Lookup(rs, key, first).consumed;
    assert rs == rs[..c] + rs[c..];
    ValuesForAppend(rs[..c], rs[c..], next);
    ValuesForBelow(rs[..c], key, next);
  }

  /**
   * A first-mode match is the first value stored under `key`, and the values
   * left after the cursor are the rest: repeating the query finds the next
   * record with the same key.
   */
  lemma {:induction false} RepeatFirst(rs: seq<Record>, key: seq<Byte>)
    requires Lookup(rs, key, true).hit.Some?
    ensures var m := Lookup(rs, key, true);
      ValuesFor(rs, key) == [m.hit.value] + ValuesFor(rs[m.consumed..], key)
    decreases |rs|
  {
    var c := Compare(rs[0].key, key);
    CompareZeroIffEqual(rs[0].key, key);
    if c < 0 {
      LookupCons(rs, key, true);
      RepeatFirst(rs[1..], key);
      var k := Lookup(rs[1..], key, true).consumed;
      assert rs[1..][k..] == rs[k + 1..];
    }
  }

  /** In a sorted block, repeating an all-mode query finds nothing: the cursor is past every match. */
  lemma {:induction false} RepeatAll(rs: seq<Record>, key: seq<Byte>)
    requires Sorted(rs)
    ensures ValuesFor(rs[Lookup(rs, key, false).consumed..], key) == []
  {
    var c := Lookup(rs, key, false).consumed;
    if c < |rs| {
      assert Sorted(rs[c..]);
      NoneAfterGreater(rs[c..], key);
    }
  }
}

=== FILE: scanner.dfy ===
/**
 * The lookup cursor of scanner.go. A `Scanner` holds the index of the block
 * it is positioned in, that block's decoded bytes, an offset into them, and
 * the key-order state. `Locate` (blockFor), `QueryFirst` (GetFirst) and
 * `QueryAll` (GetAll) say what one call does to that state and returns; the
 * class `Scanner` performs the calls in place and is proved to follow them.
 */
module Scanning {
  import opened Wrappers
  import opened Bytes
  import opened BlockFormat
  import opened RecordLookup
  import opened BlockScan

  datatype Error =
    | OutOfOrder(key: seq<Byte>, last: seq<Byte>)  // a query for a key below the previous one
    | BlockError(block: nat)                         // the reader could not produce block `block`

  /** An entry of the block index: the first key stored in its block. */
  datatype IndexEntry = IndexEntry(firstKey: seq<Byte>)
  {
    /** The block starts after `key`, so it cannot hold it. */
    predicate IsAfter(key: seq<Byte>): (after: bool)
      ensures after <==> Less(key, firstKey)
      ensures after ==> firstKey != key
    {
      CompareAntisymmetric(firstKey, key);
      Compare(firstKey, key) > 0
    }
  }

  /** The last entry not after `key`, or the first entry when every entry is after it. */
  function LastNotAfter(index: seq<IndexEntry>, key: seq<Byte>): (n: nat)
    requires |index| > 0
    ensures n < |index|
    ensures 0 < n ==> !index[n].IsAfter(key)
    ensures forall j :: n < j < |index| ==> index[j].IsAfter(key)
    decreases |index|
  {
    var last := |index| - 1;
    if last == 0 || !index[last].IsAfter(key) then last
    else LastNotAfter(index[..last], key)
  }

  /**
   * The parts of a reader a scanner uses: the block index and, for each
   * block, the decoded bytes fetching it yields, or None where fetching or
   * decompressing it fails.
   */
  datatype Reader = Reader(index: seq<IndexEntry>, blocks: seq<Option<seq<Byte>>>)
  {
    predicate Valid()
    {
      && |index| > 0
      && |blocks| == |index|
      && forall n :: 0 <= n < |blocks| && blocks[n].Some? ==> Framed(blocks[n].value, HeaderSize)
    }

    /**
     * The reader's search for the block that may hold `key`; the hint (the
     * scanner's current block) only speeds it up. The reader's own search is
     * not modelled: it is taken to be `LastNotAfter` of the index, whose
     * contract it repeats so that callers need not unfold it.
     */
    function FindBlock(hint: nat, key: seq<Byte>): (n: nat)
      requires |index| > 0
      ensures n < |index|
      ensures 0 < n ==> !index[n].IsAfter(key)
      ensures forall j :: n < j < |index| ==> index[j].IsAfter(key)
    {
      LastNotAfter(index, key)
    }

    /** Block n decoded into the reusable buffer `buf` (a capacity hint only), or the error fetching it. */
    function GetBlockBuf(n: nat, buf: seq<Byte>): (r: Result<seq<Byte>, Error>)
      requires Valid() && n < |index|
      ensures r.Ok? ==> Framed(r.value, HeaderSize) && blocks[n] == Some(r.value)
      ensures r.Err? ==> r.error == BlockError(n) && blocks[n] == None
    {
      if blocks[n].Some? then Ok(blocks[n].value) else Err(BlockError(n))
    }
  }

  /** The key-order state: the last key queried, if any. */
  datatype OrderedOps = OrderedOps(lastKey: Option<seq<Byte>>)
  {
    /** A key below the last one is out of order; any other key becomes the last one. */
    function CheckIfKeyOutOfOrder(key: seq<Byte>): (r: Result<OrderedOps, Error>)
      ensures r.Err? <==> lastKey.Some? && Less(key, lastKey.value)
      ensures r.Err? ==> r.error == OutOfOrder(key, lastKey.value)
      ensures r.Ok? ==> r.value.lastKey == Some(key)
    {
      match lastKey
      case None => Ok(OrderedOps(Some(key)))
      case Some(last) =>
        CompareAntisymmetric(last, key);
        if Compare(last, key) > 0 then Err(OutOfOrder(key, last)) else Ok(OrderedOps(Some(key)))
    }

    /** Forget the last key, so that the next key of any value is in order. */
    function ResetState(): (o: OrderedOps)
      ensures o.lastKey.None?
      ensures forall key :: o.CheckIfKeyOutOfOrder(key).Ok?
    {
      OrderedOps(None)
    }
  }

  /** A scanner's cursor: current block index, loaded block, offset into it, and key-order state. */
  datatype Cursor = Cursor(idx: nat, block: Option<seq<Byte>>, pos: Option<nat>, order: OrderedOps)

  /** A new or reset scanner: at block 0, no block loaded, no offset, no key remembered. */
  const Idle: Cursor := Cursor(0, None, None, OrderedOps(None))

  /**
   * The cursor names a block of the reader; an offset exists exactly when a
   * block is loaded, and then the block is the reader's block at that index and
   * the offset lies at or after the header, on a record boundary.
   */
  predicate CursorValid(r: Reader, c: Cursor)
  {
    && r.Valid()
    && c.idx < |r.index|
    && (c.block.Some? <==> c.pos.Some?)
    && (c.block.Some? ==>
          && r.blocks[c.idx] == c.block
          && HeaderSize <= c.pos.value
          && Framed(c.block.value, c.pos.value))
  }

  /** Same block index, loaded block and offset; the key-order state may differ. */
  predicate SamePlace(a: Cursor, b: Cursor)
  {
    a.idx == b.idx && a.block == b.block && a.pos == b.pos
  }

  /** With order enforcement on, `key` is below the last key queried. */
  predicate OutOfOrderFor(c: Cursor, enforce: bool, key: seq<Byte>)
  {
    enforce && c.order.lastKey.Some? && Less(key, c.order.lastKey.value)
  }

  /** What blockFor reports: a block to scan, no block (the key cannot be present), or an error. */
  datatype BlockOutcome = Ready | NoBlock | Failed(error: Error)

  datatype Located = Located(cursor: Cursor, outcome: BlockOutcome)

  /**
   * blockFor: check the key order, short-circuit when the current block starts
   * after the key, otherwise find the block for the key and load it when it is
   * another block or none is loaded.
   */
  function Locate(r: Reader, c: Cursor, enforce: bool, key: seq<Byte>): (l: Located)
    requires CursorValid(r, c)
    ensures CursorValid(r, l.cursor)
    // an out-of-order key is refused before anything else, and changes nothing
    ensures l.outcome.Failed? && l.outcome.error.OutOfOrder? <==> OutOfOrderFor(c, enforce, key)
    ensures OutOfOrderFor(c, enforce, key) ==>
      l.cursor == c && l.outcome == Failed(OutOfOrder(key, c.order.lastKey.value))
    // otherwise, with enforcement on, the key is remembered
    ensures !OutOfOrderFor(c, enforce, key) ==>
      l.cursor.order == if enforce then OrderedOps(Some(key)) else c.order
    // a current block that starts after the key: no block, no error, no load
    ensures l.outcome == NoBlock <==> !OutOfOrderFor(c, enforce, key) && r.index[c.idx].IsAfter(key)
    ensures l.outcome == NoBlock ==> SamePlace(l.cursor, c)
    ensures var n := r.FindBlock(c.idx, key);
      var load := !OutOfOrderFor(c, enforce, key) && !r.index[c.idx].IsAfter(key) && (n != c.idx || c.block.None?);
      // a block is loaded only when the block found differs from the current one or none is loaded ...
      && (!load ==> SamePlace(l.cursor, c))
      // ... so a query that stays in the loaded block goes on from the cursor
      && (!OutOfOrderFor(c, enforce, key) && !r.index[c.idx].IsAfter(key) && !load ==> l.outcome == Ready)
      // ... and then the cursor is on its first record
      && (load && r.blocks[n].Some? ==>
            l.outcome == Ready && SamePlace(l.cursor, Cursor(n, r.blocks[n], Some(HeaderSize), c.order)))
      // a failed load returns the reader's error and keeps the cursor where it was
      && (load && r.blocks[n].None? ==> l.outcome == Failed(BlockError(n)) && SamePlace(l.cursor, c))
      // the block scanned is always the one found for the key
      && (l.outcome == Ready ==> l.cursor.idx == n && l.cursor.block.Some?)
  {
    var checked := if enforce then c.order.CheckIfKeyOutOfOrder(key) else Ok(c.order);
    if checked.Err? then Located(c, Failed(checked.error))
    else
      var c1 := c.(order := checked.value);
      if r.index[c.idx].IsAfter(key) then Located(c1, NoBlock)
      else
        var n := r.FindBlock(c.idx, key);
        if n != c.idx || c.block.None? then
          match r.GetBlockBuf(n, [])
          case Err(e) => Located(c1, Failed(e))
          case Ok(data) => Located(c1.(idx := n, block := Some(data), pos := Some(HeaderSize)), Ready)
        else Located(c1, Ready)
  }

  /** The error blockFor passes on, if any. */
  function ErrorOf(o: BlockOutcome): (e: Option<Error>)
  {
    if o.Failed? then Some(o.error) else None
  }

  /** What GetFirst returns, and the cursor it leaves. */
  datatype FirstResult = FirstResult(cursor: Cursor, value: seq<Byte>, err: Option<Error>, found: bool)

  /**
   * GetFirst: locate the block, then scan it from the cursor in first mode.
   * Without a block it reports not found, with blockFor's error if any. With
   * one, it finds the first-mode lookup over the records from the cursor on,
   * and moves the cursor forward past exactly the records the lookup consumed.
   */
  function QueryFirst(r: Reader, c: Cursor, enforce: bool, key: seq<Byte>): (q: FirstResult)
    requires CursorValid(r, c)
    ensures CursorValid(r, q.cursor)
    ensures var l := Locate(r, c, enforce, key);
      && (l.outcome != Ready ==> q == FirstResult(l.cursor, [], ErrorOf(l.outcome), false))
      && (l.outcome == Ready ==>
            var block, pos := l.cursor.block.value, l.cursor.pos.value;
            var m := Lookup(Parse(block, pos), key, true);
            && q.err == None
            && q.found == m.hit.Some?
            && q.value == (if m.hit.Some? then m.hit.value else [])
            && q.cursor == l.cursor.(pos := q.cursor.pos)
            && q.cursor.pos.Some? && pos <= q.cursor.pos.value
            && Parse(block, q.cursor.pos.value) == Parse(block, pos)[m.consumed..])
  {
    var l := Locate(r, c, enforce, key);
    if l.outcome != Ready then FirstResult(l.cursor, [], ErrorOf(l.outcome), false)
    else
      var block, pos := l.cursor.block.value, l.cursor.pos.value;
      var s := ScanLoop(block, pos, key, true, []);
      ScanLoopLookup(block, pos, key, true, []);
      ScanLoopCursor(block, pos, key, true, []);
      FirstResult(l.cursor.(pos := Some(s.newPos)), s.value, None, s.found)
  }

  /** What GetAll returns, and the cursor it leaves. */
  datatype AllResult = AllResult(cursor: Cursor, values: seq<seq<Byte>>, err: Option<Error>)

  /**
   * GetAll: locate the block, then scan it from the cursor in all mode. Without
   * a block it returns no values, with blockFor's error if any. With one, it
   * returns the values the all-mode lookup collects from the cursor on, and
   * moves the cursor forward past exactly the records the lookup consumed.
   */
  function QueryAll(r: Reader, c: Cursor, enforce: bool, key: seq<Byte>): (q: AllResult)
    requires CursorValid(r, c)
    ensures CursorValid(r, q.cursor)
    ensures var l := Locate(r, c, enforce, key);
      && (l.outcome != Ready ==> q == AllResult(l.cursor, [], ErrorOf(l.outcome)))
      && (l.outcome == Ready ==>
            var block, pos := l.cursor.block.value, l.cursor.pos.value;
            var m := Lookup(Parse(block, pos), key, false);
            && q.err == None
            && q.values == m.values
            && q.cursor == l.cursor.(pos := q.cursor.pos)
            && q.cursor.pos.Some? && pos <= q.cursor.pos.value
            && Parse(block, q.cursor.pos.value) == Parse(block, pos)[m.consumed..])
  {
    var l := Locate(r, c, enforce, key);
    if l.outcome != Ready then AllResult(l.cursor, [], ErrorOf(l.outcome))
    else
      var block, pos := l.cursor.block.value, l.cursor.pos.value;
      var s := ScanLoop(block, pos, key, false, []);
      ScanLoopLookup(block, pos, key, false, []);
      ScanLoopCursor(block, pos, key, false, []);
      assert [] + Lookup(Parse(block, pos), key, false).values == Lookup(Parse(block, pos), key, false).values;
      AllResult(l.cursor.(pos := Some(s.newPos)), s.values, None)
  }

  /**
   * The Scanner of scanner.go. The reader and the reusable buffer never change;
   * `enforceKeyOrder` is public and callers may switch it off.
   */
  class Scanner {
    const reader: Reader
    const buf: seq<Byte>
    var enforceKeyOrder: bool
    var idx: nat
    var block: Option<seq<Byte>>
    var pos: Option<nat>
    var order: OrderedOps

    function State(): (c: Cursor)
      reads this
    {
      Cursor(idx, block, pos, order)
    }

    predicate Valid()
      reads this
    {
      CursorValid(reader, State())
    }

    /** NewScanner: an idle scanner over `r`, with key-order enforcement on. */
    constructor (r: Reader, buf: seq<Byte>)
      requires r.Valid()
      ensures Valid() && reader == r && this.buf == buf
      ensures enforceKeyOrder && State() == Idle
    {
      reader := r;
      this.buf := buf;
      enforceKeyOrder := true;
      idx := 0;
      block := None;
      pos := None;
      order := OrderedOps(None);
    }

    /** Back to block 0 with no block, no offset and no remembered key. */
    method Reset()
      requires Valid()
      modifies this
      ensures Valid() && State() == Idle
      ensures enforceKeyOrder == old(enforceKeyOrder)
    {
      idx := 0;
      block := None;
      pos := None;
      order := order.ResetState();
    }

    /** Release resets the scanner; handing it back to the reader's pool is not modelled. */
    method Release()
      requires Valid()
      modifies this
      ensures Valid() && State() == Idle
      ensures enforceKeyOrder == old(enforceKeyOrder)
    {
      Reset();
    }

    /** blockFor: the block to scan for `key` (empty when there is none), blockFor's error, and whether there is a block. */
    method BlockFor(key: seq<Byte>) returns (data: seq<Byte>, err: Option<Error>, ok: bool)
      requires Valid()
      modifies this
      ensures Valid() && enforceKeyOrder == old(enforceKeyOrder)
      ensures var l := Locate(reader, old(State()), old(enforceKeyOrder), key);
        && State() == l.cursor
        && ok == (l.outcome == Ready)
        && err == ErrorOf(l.outcome)
        && data == (if ok then block.value else [])
    {
      if enforceKeyOrder {
        var checked := order.CheckIfKeyOutOfOrder(key);
        if checked.Err? {
          return [], Some(checked.error), false;
        }
        order := checked.value;
      }
      if reader.index[idx].IsAfter(key) {
        return [], None, false;
      }
      var n := reader.FindBlock(idx, key);
      if n != idx || block.None? {
        var fetched := reader.GetBlockBuf(n, buf);
        if fetched.Err? {
          return [], Some(fetched.error), false;
        }
        pos := Some(HeaderSize);
        idx := n;
        block := Some(fetched.value);
      }
      return block.value, None, true;
    }

    /** GetFirst: the first value stored under `key` from the cursor on, if any. */
    method GetFirst(key: seq<Byte>) returns (value: seq<Byte>, err: Option<Error>, found: bool)
      requires Valid()
      modifies this
      ensures Valid() && enforceKeyOrder == old(enforceKeyOrder)
      ensures var q := QueryFirst(reader, old(State()), old(enforceKeyOrder), key);
        State() == q.cursor && value == q.value && err == q.err && found == q.found
    {
      var data, e, ok := BlockFor(key);
      if !ok {
        return [], e, false;
      }
      var v, values, f, newPos := GetValuesFromBuffer(data, pos.value, key, true);
      pos := Some(newPos);
      return v, None, f;
    }

    /** GetAll: every value stored under `key` from the cursor on, in block order. */
    method GetAll(key: seq<Byte>) returns (values: seq<seq<Byte>>, err: Option<Error>)
      requires Valid()
      modifies this
      ensures Valid() && enforceKeyOrder == old(enforceKeyOrder)
      ensures var q := QueryAll(reader, old(State()), old(enforceKeyOrder), key);
        State() == q.cursor && values == q.values && err == q.err
    {
      var data, e, ok := BlockFor(key);
      if !ok {
        return [], e;
      }
      var v, acc, f, newPos := GetValuesFromBuffer(data, pos.value, key, false);
      pos := Some(newPos);
      return acc, e;
    }
  }
}

=== FILE: scenarios.dfy ===
/**
 * The round trips of writer_test.go, stated for the scanner: a file whose
 * blocks hold the pairs a test wrote, in order, answers the test's queries as
 * the test expects. Writing the file (block size, compression) is outside the
 * model, so each scenario takes any indexed reader whose records are the
 * written pairs. `OneBlockIndexed` shows such a reader exists for every
 * non-empty, sorted list of pairs that fit their u32 length fields and whose
 * last pair is not the one with an empty key and an empty value.
 */
module Scenarios {
  import opened Wrappers
  import opened Bytes
  import opened BlockFormat
  import opened RecordLookup
  import opened Scanning
  import opened Sessions
  import opened TestData

  /** The pairs a test writes: key number ks[j] with the value for number vs[j], as keyI and valI make them. */
  function IntPairs(ks: seq<int>, vs: seq<int>): (rs: seq<Record>)
    requires |ks| == |vs|
    ensures |rs| == |ks|
    ensures forall j :: 0 <= j < |rs| ==> rs[j] == Record(MockKeyInt(ks[j]), MockValueInt(vs[j]))
  {
    seq(|ks|, j requires 0 <= j < |ks| => Record(MockKeyInt(ks[j]), MockValueInt(vs[j])))
  }

  /** The value numbers listed for key number i from position j on, in order. */
  function ValueNumbers(ks: seq<int>, vs: seq<int>, i: int, j: nat): (ns: seq<int>)
    requires |ks| == |vs|
    decreases |ks| - j
  {
    if j >= |ks| then []
    else (if ks[j] == i then [vs[j]] else []) + ValueNumbers(ks, vs, i, j + 1)
  }

  /** valI of each number, in order. */
  function MockValues(ns: seq<int>): (vs: seq<seq<Byte>>)
    ensures |vs| == |ns| && forall j :: 0 <= j < |ns| ==> vs[j] == MockValueInt(ns[j])
  {
    if ns == [] then [] else [MockValueInt(ns[0])] + MockValues(ns[1..])
  }

  /** Key numbers within the uint32 range. */
  predicate InRange(ks: seq<int>)
  {
    forall j :: 0 <= j < |ks| ==> 0 <= ks[j] < TwoTo32
  }

  /** Under MockKeyInt(i) the written pairs hold exactly the values listed for i. */
  lemma {:induction false} IntPairsValues(ks: seq<int>, vs: seq<int>, i: int)
    requires |ks| == |vs| && InRange(ks) && 0 <= i < TwoTo32
    ensures ValuesFor(IntPairs(ks, vs), MockKeyInt(i)) == MockValues(ValueNumbers(ks, vs, i, 0))
  {
    IntPairsValuesFrom(ks, vs, i, 0);
    assert IntPairs(ks, vs)[0..] == IntPairs(ks, vs);
  }

  /** IntPairsValues for the pairs from position j on. */
  lemma {:induction false} IntPairsValuesFrom(ks: seq<int>, vs: seq<int>, i: int, j: nat)
    requires |ks| == |vs| && InRange(ks) && 0 <= i < TwoTo32 && j <= |ks|
    ensures ValuesFor(IntPairs(ks, vs)[j..], MockKeyInt(i)) == MockValues(ValueNumbers(ks, vs, i, j))
    decreases |ks| - j
  {
    if j < |ks| {
      var rs := IntPairs(ks, vs);
      assert rs[j..][1..] == rs[j + 1..];
      IntPairsValuesFrom(ks, vs, i, j + 1);
      MockKeyInjective(ks[j], i);
      var rest := ValueNumbers(ks, vs, i, j + 1);
      if ks[j] == i {
        assert MockValues([vs[j]] + rest) == [MockValueInt(vs[j])] + MockValues(rest);
      } else {
        assert [] + rest == rest;
      }
    }
  }

  /** Pairs written with non-decreasing key numbers are sorted. */
  lemma {:induction false} IntPairsSorted(ks: seq<int>, vs: seq<int>)
    requires |ks| == |vs| && InRange(ks)
    requires forall a, b :: 0 <= a < b < |ks| ==> ks[a] <= ks[b]
    ensures Sorted(IntPairs(ks, vs))
  {
    var rs := IntPairs(ks, vs);
    forall a, b | 0 <= a < b < |rs|
      ensures LessEq(rs[a].key, rs[b].key)
    {
      MockKeyOrder(ks[a], ks[b]);
      CompareZeroIffEqual(rs[a].key, rs[b].key);
    }
  }

  /** The header in front of the records of a block. */
  const Header: seq<Byte> := [0, 0, 0, 0, 0, 0, 0, 0]

  /** A file of one block holding `rs`, laid out as a writer lays records out. */
  function OneBlockReader(rs: seq<Record>): (r: Reader)
    requires AllFit(rs) && rs != []
    ensures |r.index| == 1 && r.index[0].firstKey == rs[0].key
  {
    Reader([IndexEntry(rs[0].key)], [Some(Header + EncodeRecords(rs))])
  }

  /**
   * Any sorted, non-empty list of pairs whose last pair is not the empty one
   * (the scan cannot see that one) is the content of an indexed file.
   */
  lemma {:induction false} OneBlockIndexed(rs: seq<Record>)
    requires AllFit(rs) && Sorted(rs) && rs != []
    requires rs[|rs| - 1] != Record([], [])
    ensures Indexed(OneBlockReader(rs))
    ensures FileRecords(OneBlockReader(rs)) == rs
  {
    OneBlockRecords(rs);
    SingleBlockIndexed(OneBlockReader(rs), rs);
  }

  /** The one block of OneBlockReader(rs) reads back as rs. */
  lemma {:induction false} OneBlockRecords(rs: seq<Record>)
    requires AllFit(rs) && rs != []
    requires rs[|rs| - 1] != Record([], [])
    ensures OneBlockReader(rs).Valid() && OneBlockReader(rs).blocks[0].Some?
    ensures BlockRecords(OneBlockReader(rs), 0) == rs
  {
    HeaderedRecords(rs);
  }

  /** A valid file of one block whose records are sorted and start at its index entry's key is indexed. */
  lemma {:induction false} SingleBlockIndexed(r: Reader, rs: seq<Record>)
    requires r.Valid() && |r.index| == 1 && r.blocks[0].Some?
    requires BlockRecords(r, 0) == rs && Sorted(rs) && rs != [] && r.index[0].firstKey == rs[0].key
    ensures Indexed(r) && FileRecords(r) == rs
  {
    forall j | 0 <= j < |rs|
      ensures LessEq(r.index[0].firstKey, rs[j].key)
    {
      CompareZeroIffEqual(rs[0].key, rs[0].key);
    }
    assert BlockInRange(r, 0);
    assert Blocks(r) == [rs];
    assert FileRecords(r) == Flatten([]) + rs;
  }

  /** Sorted pairs split over two blocks so that key [2] has a record in each. */
  const SpanFirst: seq<Record> := [Record([1], [10]), Record([2], [20])]
  const SpanSecond: seq<Record> := [Record([2], [21])]

  /** The two-block file of SpanFirst then SpanSecond, indexed by each block's first key. */
  function SpanningReader(): (r: Reader)
  {
    Reader([IndexEntry([1]), IndexEntry([2])],
           [Some(Header + EncodeRecords(SpanFirst)), Some(Header + EncodeRecords(SpanSecond))])
  }

  /**
   * When a key's records cross a block boundary, blockFor goes to the last
   * block whose first key is not after the key, so the values in the earlier
   * block are never seen: GetAll returns one of the two values written, and
   * GetFirst returns the second one.
   */
  lemma {:induction false} SpanningKeyLost()
    ensures SpanningReader().Valid()
    ensures BlockRecords(SpanningReader(), 0) == SpanFirst && BlockRecords(SpanningReader(), 1) == SpanSecond
    ensures Sorted(SpanFirst + SpanSecond) && Less(SpanningReader().index[0].firstKey, SpanningReader().index[1].firstKey)
    ensures ValuesFor(SpanFirst + SpanSecond, [2]) == [[20], [21]]
    ensures QueryAll(SpanningReader(), Idle, true, [2]).values == [[21]]
    ensures QueryFirst(SpanningReader(), Idle, true, [2]).value == [21]
  {
    SpanningBlocks();
    SpanningFile();
    SpanningQueries();
  }

  /** The two blocks of SpanningReader read back as SpanFirst and SpanSecond. */
  lemma {:induction false} SpanningBlocks()
    ensures SpanningReader().Valid()
    ensures BlockRecords(SpanningReader(), 0) == SpanFirst && BlockRecords(SpanningReader(), 1) == SpanSecond
  {
    HeaderedRecords(SpanFirst);
    HeaderedRecords(SpanSecond);
  }

  /** A block of a header and the records `rs` laid out by a writer reads back as `rs`. */
  lemma {:induction false} HeaderedRecords(rs: seq<Record>)
    requires AllFit(rs) && rs != [] && rs[|rs| - 1] != Record([], [])
    ensures Framed(Header + EncodeRecords(rs), HeaderSize)
    ensures Parse(Header + EncodeRecords(rs), HeaderSize) == rs
  {
    ParseEncoded(Header, rs);
  }

  /** The pairs of the spanning file are sorted, its index keys increase, and it holds two values under [2]. */
  lemma {:induction false} SpanningFile()
    ensures Sorted(SpanFirst + SpanSecond) && Less(SpanningReader().index[0].firstKey, SpanningReader().index[1].firstKey)
    ensures ValuesFor(SpanFirst + SpanSecond, [2]) == [[20], [21]]
  {
    var all := SpanFirst + SpanSecond;
    assert Less([1], [2]) && LessEq([2], [2]);
    forall a, b | 0 <= a < b < |all|
      ensures LessEq(all[a].key, all[b].key)
    {
    }
    ValuesForAppend(SpanFirst, SpanSecond, [2]);
    assert SpanSecond[1..] == [] && SpanFirst[1..][1..] == [];
    assert ValuesFor(SpanFirst[1..], [2]) == [[20]] + [];
    assert ValuesFor(SpanSecond, [2]) == [[21]] + [];
  }

  /** On the spanning file, GetAll and GetFirst for [2] only see the second block. */
  lemma {:induction false} SpanningQueries()
    requires SpanningReader().Valid()
    requires BlockRecords(SpanningReader(), 1) == SpanSecond
    ensures QueryAll(SpanningReader(), Idle, true, [2]).values == [[21]]
    ensures QueryFirst(SpanningReader(), Idle, true, [2]).value == [21]
  {
    var r := SpanningReader();
    CompareZeroIffEqual([2], [2]);
    assert !r.index[0].IsAfter([2]) && !r.index[1].IsAfter([2]);
    assert r.FindBlock(0, [2]) == 1;
    assert Lookup(SpanSecond, [2], false).values == [[21]];
    assert Lookup(SpanSecond, [2], true).hit == Some([21]);
  }

  const RoundTripKeys: seq<int> := [1, 2, 3, 4]

  /** The file of TestRoundTrip holds valI(3) under keyI(3) and nothing under keyI(5). */
  lemma {:induction false} RoundTripFile()
    ensures ValuesFor(IntPairs(RoundTripKeys, RoundTripKeys), MockKeyInt(3)) == [MockValueInt(3)]
    ensures ValuesFor(IntPairs(RoundTripKeys, RoundTripKeys), MockKeyInt(5)) == []
  {
    assert InRange(RoundTripKeys);
    IntPairsValues(RoundTripKeys, RoundTripKeys, 3);
    IntPairsValues(RoundTripKeys, RoundTripKeys, 5);
  }

  /**
   * TestRoundTrip (and TestRoundTripCompressed): keys 1 to 4 with their
   * values; GetFirst(keyI(3)) finds valI(3), then GetFirst(keyI(5)) finds
   * nothing, both without error.
   */
  method RoundTrip(r: Reader) returns (v: seq<Byte>, err: Option<Error>, found: bool, err5: Option<Error>, found5: bool)
    requires Indexed(r) && FileRecords(r) == IntPairs(RoundTripKeys, RoundTripKeys)
    ensures err == None && found && v == MockValueInt(3)
    ensures err5 == None && !found5
  {
    RoundTripFile();
    var s := new Scanner(r, []);
    IdleTracks(r);
    QueryFirstInSession(r, Idle, true, None, MockKeyInt(3));
    v, err, found := s.GetFirst(MockKeyInt(3));
    MockKeyOrder(3, 5);
    QueryFirstInSession(r, s.State(), true, Some(MockKeyInt(3)), MockKeyInt(5));
    var v5;
    v5, err5, found5 := s.GetFirst(MockKeyInt(5));
  }

  const MultiKeys: seq<int> := [10, 10, 20, 30, 30, 30, 40]
  const MultiValues: seq<int> := [10, 11, 20, 30, 31, 32, 40]

  /** The value numbers TestMultiValueRoundTripCompressed writes under key numbers 30, 40 and 50. */
  lemma {:induction false} MultiNumbers()
    ensures ValueNumbers(MultiKeys, MultiValues, 30, 0) == [30, 31, 32]
    ensures ValueNumbers(MultiKeys, MultiValues, 40, 0) == [40]
    ensures ValueNumbers(MultiKeys, MultiValues, 50, 0) == []
  {
  }

  /** valI of three numbers. */
  lemma {:induction false} MockValuesOfThree(a: int, b: int, c: int)
    ensures MockValues([a, b, c]) == [MockValueInt(a), MockValueInt(b), MockValueInt(c)]
  {
  }

  /** The file of TestMultiValueRoundTripCompressed holds three values under keyI(30), in write order. */
  lemma {:induction false} MultiValueFile30()
    ensures ValuesFor(IntPairs(MultiKeys, MultiValues), MockKeyInt(30)) == [MockValueInt(30), MockValueInt(31), MockValueInt(32)]
  {
    assert InRange(MultiKeys);
    IntPairsValues(MultiKeys, MultiValues, 30);
    MultiNumbers();
    MockValuesOfThree(30, 31, 32);
  }

  /** The file of TestMultiValueRoundTripCompressed holds one value under keyI(40) and none under keyI(50). */
  lemma {:induction false} MultiValueFile40And50()
    ensures ValuesFor(IntPairs(MultiKeys, MultiValues), MockKeyInt(40)) == [MockValueInt(40)]
    ensures ValuesFor(IntPairs(MultiKeys, MultiValues), MockKeyInt(50)) == []
  {
    assert InRange(MultiKeys);
    IntPairsValues(MultiKeys, MultiValues, 40);
    IntPairsValues(MultiKeys, MultiValues, 50);
    MultiNumbers();
  }

  /**
   * TestMultiValueRoundTripCompressed: GetAll(keyI(30)) returns the three
   * values written under it, in order, GetAll(keyI(40)) the one, and
   * GetAll(keyI(50)) none, all without error.
   */
  method MultiValueRoundTrip(r: Reader) returns (v30: seq<seq<Byte>>, e30: Option<Error>, v40: seq<seq<Byte>>, e40: Option<Error>, v50: seq<seq<Byte>>, e50: Option<Error>)
    requires Indexed(r) && FileRecords(r) == IntPairs(MultiKeys, MultiValues)
    ensures e30 == None && v30 == [MockValueInt(30), MockValueInt(31), MockValueInt(32)]
    ensures e40 == None && v40 == [MockValueInt(40)]
    ensures e50 == None && v50 == []
  {
    MultiValueFile30();
    MultiValueFile40And50();
    var s := new Scanner(r, []);
    IdleTracks(r);
    QueryAllInSession(r, Idle, true, None, MockKeyInt(30));
    v30, e30 := s.GetAll(MockKeyInt(30));
    MockKeyOrder(30, 40);
    QueryAllInSession(r, s.State(), true, Some(MockKeyInt(30)), MockKeyInt(40));
    v40, e40 := s.GetAll(MockKeyInt(40));
    MockKeyOrder(40, 50);
    QueryAllInSession(r, s.State(), true, Some(MockKeyInt(40)), MockKeyInt(50));
    v50, e50 := s.GetAll(MockKeyInt(50));
  }

  /** The pairs WriteMockIntPairs writes for 0 < n < 2^31 keys can make up an indexed file. */
  lemma {:induction false} MockFileExists(n: int, multi: bool)
    requires 0 < n < 0x8000_0000
    ensures AllFit(MockPairs(n, multi)) && MockPairs(n, multi) != []
    ensures Indexed(OneBlockReader(MockPairs(n, multi)))
    ensures FileRecords(OneBlockReader(MockPairs(n, multi))) == MockPairs(n, multi)
  {
    var ps := MockPairs(n, multi);
    MockPairsFit(n, multi);
    MockPairsCount(n, multi);
    MockPairsSorted(n, multi);
    assert |ps[|ps| - 1].key| == 4 by {
      MockPairsKeys(n, multi);
    }
    OneBlockIndexed(ps);
  }

  /**
   * TestBigRoundTripCompressed: a file of keys 0 to 999999 with their values;
   * GetFirst(keyI(501)) finds valI(501) without error.
   */
  method BigRoundTrip(r: Reader) returns (v: seq<Byte>, err: Option<Error>, found: bool)
    requires Indexed(r) && FileRecords(r) == MockPairs(1000000, false)
    ensures err == None && found && v == MockValueInt(501)
  {
    MockPairsValues(1000000, false, 501);
    var s := new Scanner(r, []);
    IdleTracks(r);
    QueryFirstInSession(r, Idle, true, None, MockKeyInt(501));
    v, err, found := s.GetFirst(MockKeyInt(501));
  }
}

=== FILE: session.dfy ===
/**
 * A session of queries on one scanner. For a file whose blocks are sorted and
 * indexed by their first keys, with no key's records split over two blocks, a
 * run of GetFirst/GetAll calls with strictly increasing keys answers each
 * query as a lookup over the whole file would: the cursor the scanner keeps
 * between calls never hides a record a later query needs.
 */
module Sessions {
  import opened Wrappers
  import opened Bytes
  import opened BlockFormat
  import opened RecordLookup
  import opened Scanning

  /** The records of block n, as the scanner reads them from just after the header. */
  function BlockRecords(r: Reader, n: nat): (rs: seq<Record>)
    requires r.Valid() && n < |r.index| && r.blocks[n].Some?
  {
    Parse(r.blocks[n].value, HeaderSize)
  }

  /**
   * Block n can be fetched and holds sorted keys, none below its index entry's
   * first key and, unless it is the last block, all below the next entry's
   * first key.
   */
  predicate BlockInRange(r: Reader, n: nat)
    requires r.Valid() && n < |r.index|
  {
    && r.blocks[n].Some?
    && Sorted(BlockRecords(r, n))
    && (forall j :: 0 <= j < |BlockRecords(r, n)| ==> LessEq(r.index[n].firstKey, BlockRecords(r, n)[j].key))
    && (n + 1 < |r.index| ==>
          forall j :: 0 <= j < |BlockRecords(r, n)| ==> Less(BlockRecords(r, n)[j].key, r.index[n + 1].firstKey))
  }

  /** Every block can be fetched and is in range, and the index entries' first keys never decrease. */
  predicate Indexed(r: Reader)
  {
    && r.Valid()
    && (forall n :: 0 <= n < |r.blocks| ==> r.blocks[n].Some?)
    && (forall n :: 0 <= n < |r.index| ==> BlockInRange(r, n))
    && (forall a, b :: 0 <= a < b < |r.index| ==> LessEq(r.index[a].firstKey, r.index[b].firstKey))
  }

  /** The records of each block, in index order. */
  function Blocks(r: Reader): (bs: seq<seq<Record>>)
    requires Indexed(r)
    ensures |bs| == |r.index|
    ensures forall n :: 0 <= n < |bs| ==> bs[n] == BlockRecords(r, n)
  {
    seq(|r.index|, n requires 0 <= n < |r.index| => BlockRecords(r, n))
  }

  /** Every record of the file, in file order. */
  function FileRecords(r: Reader): (rs: seq<Record>)
    requires Indexed(r)
  {
    Flatten(Blocks(r))
  }

  /** A block other than the one found for `key` holds no value for it. */
  lemma {:induction false} OtherBlockEmpty(r: Reader, key: seq<Byte>, m: nat)
    requires Indexed(r) && m < |r.index|
    requires m != LastNotAfter(r.index, key)
    ensures ValuesFor(BlockRecords(r, m), key) == []
  {
    var n := LastNotAfter(r.index, key);
    var rs := BlockRecords(r, m);
    assert BlockInRange(r, m);
    forall j | 0 <= j < |rs|
      ensures rs[j].key != key
    {
      if m < n {
        var next := r.index[m + 1].firstKey;
        CompareAntisymmetric(r.index[n].firstKey, key);
        if m + 1 < n {
          CompareTransitive(next, r.index[n].firstKey, key);
        }
        LessTransitive(rs[j].key, next, key);
      } else {
        CompareAntisymmetric(r.index[m].firstKey, key);
        LessTransitive(key, r.index[m].firstKey, rs[j].key);
      }
      CompareZeroIffEqual(rs[j].key, key);
    }
    ValuesForAbsent(rs, key);
  }

  /** All the values the file holds for `key` are in the block FindBlock picks for it. */
  lemma {:induction false} ValuesInFoundBlock(r: Reader, hint: nat, key: seq<Byte>)
    requires Indexed(r)
    ensures ValuesFor(FileRecords(r), key) == ValuesFor(BlockRecords(r, r.FindBlock(hint, key)), key)
  {
    var n := r.FindBlock(hint, key);
    var bs := Blocks(r);
    forall m | 0 <= m < |bs| && m != n
      ensures ValuesFor(bs[m], key) == []
    {
      OtherBlockEmpty(r, key, m);
    }
    ValuesForFlatten(bs, n, key);
  }

  /**
   * From `pos` on, the records of `block` are sorted and hold, for every key
   * past `last`, all the values the whole block holds for it.
   */
  ghost predicate Resumable(block: seq<Byte>, pos: nat, last: seq<Byte>)
    requires Framed(block, pos) && Framed(block, HeaderSize)
  {
    && Sorted(Parse(block, pos))
    && forall k :: Less(last, k) ==> ValuesFor(Parse(block, pos), k) == ValuesFor(Parse(block, HeaderSize), k)
  }

  /**
   * What a scanner's cursor keeps between the calls of a session whose last
   * query was for `last` (None before the first): the remembered key is at
   * most `last`; the current block is block 0 or starts at or below `last`;
   * and a loaded block can be resumed from the cursor for any later key.
   */
  ghost predicate Tracks(r: Reader, c: Cursor, last: Option<seq<Byte>>)
  {
    && CursorValid(r, c)
    && (c.order.lastKey.Some? ==> last.Some? && LessEq(c.order.lastKey.value, last.value))
    && (last.None? ==> c.idx == 0 && c.block.None?)
    && (last.Some? ==> c.idx == 0 || !r.index[c.idx].IsAfter(last.value))
    && (c.block.Some? ==> last.Some? && Resumable(c.block.value, c.pos.value, last.value))
  }

  /** A new or reset scanner starts a session. */
  lemma {:induction false} IdleTracks(r: Reader)
    requires r.Valid()
    ensures Tracks(r, Idle, None)
  {
  }

  /** Resuming for a later key stays possible. */
  lemma {:induction false} ResumableLater(block: seq<Byte>, pos: nat, last: seq<Byte>, key: seq<Byte>)
    requires Framed(block, pos) && Framed(block, HeaderSize)
    requires Resumable(block, pos, last) && Less(last, key)
    ensures Resumable(block, pos, key)
    ensures ValuesFor(Parse(block, pos), key) == ValuesFor(Parse(block, HeaderSize), key)
  {
    forall k | Less(key, k)
      ensures ValuesFor(Parse(block, pos), k) == ValuesFor(Parse(block, HeaderSize), k)
    {
      CompareTransitive(last, key, k);
    }
  }

  /**
   * Moving the cursor past the records a lookup for `key` consumed keeps the
   * block resumable for keys past `key`.
   */
  lemma {:induction false} ResumableAfterLookup(block: seq<Byte>, pos: nat, newPos: nat, key: seq<Byte>, first: bool)
    requires Framed(block, pos) && Framed(block, newPos) && Framed(block, HeaderSize)
    requires Resumable(block, pos, key)
    requires Parse(block, newPos) == Parse(block, pos)[Lookup(Parse(block, pos), key, first).consumed..]
    ensures Resumable(block, newPos, key)
  {
    var rs := Parse(block, pos);
    forall k | Less(key, k)
      ensures ValuesFor(Parse(block, newPos), k) == ValuesFor(Parse(block, HeaderSize), k)
    {
      ResumeAfter(rs, key, first, k);
    }
  }

  /**
   * blockFor in a session, for a key past the last one: no error; no block only
   * when the file holds no value for the key; otherwise a block that, from the
   * cursor on, holds every value the file holds for the key.
   */
  lemma {:induction false} LocateInSession(r: Reader, c: Cursor, enforce: bool, last: Option<seq<Byte>>, key: seq<Byte>)
    requires Indexed(r) && Tracks(r, c, last)
    requires last.Some? ==> Less(last.value, key)
    ensures var l := Locate(r, c, enforce, key);
      && !l.outcome.Failed?
      && (l.outcome == NoBlock ==> ValuesFor(FileRecords(r), key) == [] && Tracks(r, l.cursor, Some(key)))
      && (l.outcome == Ready ==>
            var block, pos := l.cursor.block.value, l.cursor.pos.value;
            && Resumable(block, pos, key)
            && ValuesFor(Parse(block, pos), key) == ValuesFor(FileRecords(r), key)
            && Tracks(r, l.cursor.(block := None, pos := None), Some(key)))
  {
    var l := Locate(r, c, enforce, key);
    var n := r.FindBlock(c.idx, key);
    CompareZeroIffEqual(key, key);
    if c.order.lastKey.Some? {
      LessTransitive(c.order.lastKey.value, last.value, key);
      CompareAntisymmetric(c.order.lastKey.value, key);
    }
    ValuesInFoundBlock(r, c.idx, key);
    assert BlockInRange(r, n);
    if l.outcome == NoBlock {
      if last.Some? && c.idx != 0 {
        CompareAntisymmetric(r.index[c.idx].firstKey, last.value);
        LessTransitive(r.index[c.idx].firstKey, last.value, key);
        assert false;
      }
      if n > 0 {
        CompareAntisymmetric(r.index[0].firstKey, key);
        LessTransitive(key, r.index[0].firstKey, r.index[n].firstKey);
        assert false;
      }
      forall j | 0 <= j < |BlockRecords(r, 0)|
        ensures BlockRecords(r, 0)[j].key != key
      {
        CompareAntisymmetric(r.index[0].firstKey, key);
        LessTransitive(key, r.index[0].firstKey, BlockRecords(r, 0)[j].key);
        CompareZeroIffEqual(BlockRecords(r, 0)[j].key, key);
      }
      ValuesForAbsent(BlockRecords(r, 0), key);
      if c.block.Some? {
        ResumableLater(c.block.value, c.pos.value, last.value, key);
      }
    } else if l.outcome == Ready {
      var block, pos := l.cursor.block.value, l.cursor.pos.value;
      if pos != HeaderSize {
        ResumableLater(block, pos, last.value, key);
      } else {
        assert Resumable(block, pos, key);
      }
    }
  }

  /**
   * GetAll in a session, for a key past the last one: no error, exactly the
   * values the whole file holds for the key, in file order, and a cursor that
   * still tracks the session.
   */
  lemma {:induction false} QueryAllInSession(r: Reader, c: Cursor, enforce: bool, last: Option<seq<Byte>>, key: seq<Byte>)
    requires Indexed(r) && Tracks(r, c, last)
    requires last.Some? ==> Less(last.value, key)
    ensures var q := QueryAll(r, c, enforce, key);
      && q.err == None
      && q.values == ValuesFor(FileRecords(r), key)
      && Tracks(r, q.cursor, Some(key))
  {
    var l := Locate(r, c, enforce, key);
    LocateInSession(r, c, enforce, last, key);
    if l.outcome == Ready {
      var block, pos := l.cursor.block.value, l.cursor.pos.value;
      var q := QueryAll(r, c, enforce, key);
      LookupAllCollects(Parse(block, pos), key);
      ResumableAfterLookup(block, pos, q.cursor.pos.value, key, false);
    }
  }

  /**
   * GetFirst in a session, for a key past the last one: no error, found
   * exactly when the file holds a value for the key, that value the first
   * one in file order, and a cursor that still tracks the session.
   */
  lemma {:induction false} QueryFirstInSession(r: Reader, c: Cursor, enforce: bool, last: Option<seq<Byte>>, key: seq<Byte>)
    requires Indexed(r) && Tracks(r, c, last)
    requires last.Some? ==> Less(last.value, key)
    ensures var q := QueryFirst(r, c, enforce, key);
      var vs := ValuesFor(FileRecords(r), key);
      && q.err == None
      && (q.found <==> vs != [])
      && (q.found ==> q.value == vs[0])
      && Tracks(r, q.cursor, Some(key))
  {
    var l := Locate(r, c, enforce, key);
    LocateInSession(r, c, enforce, last, key);
    if l.outcome == Ready {
      var block, pos := l.cursor.block.value, l.cursor.pos.value;
      var q := QueryFirst(r, c, enforce, key);
      LookupFirstIsHead(Parse(block, pos), key);
      ResumableAfterLookup(block, pos, q.cursor.pos.value, key, true);
    }
  }
}

=== FILE: test_data.dfy ===
/**
 * The synthetic data of testdata.go: 4-byte big-endian integer keys, the
 * decimal "value-for-..." values, and `WriteMockIntPairs`, which feeds a
 * writer the pairs for keys 0, 1, ..., keyCount - 1 (odd keys three times
 * over in multi mode) and stops at the first failed write.
 */
module TestData {
  import opened Wrappers
  import opened Bytes
  import opened BlockFormat
  import opened RecordLookup

  /** The ASCII codes of '-' and '0'. */
  const Minus: Byte := 45
  const Zero: Byte := 48

  /** The ASCII bytes of "value-for-". */
  const ValuePrefix: seq<Byte> := [118, 97, 108, 117, 101, 45, 102, 111, 114, 45]

  /** `MockKeyInt(i)`: `uint32(i)` (the low 32 bits, two's complement), big-endian in 4 bytes. */
  function MockKeyInt(i: int): (k: seq<Byte>)
    ensures |k| == 4 && Uint32(k) == i % TwoTo32
    ensures 0 <= i < TwoTo32 ==> BeValue(k) == i && Uint32(k) == i
  {
    Uint32OfPut(i % TwoTo32);
    PutUint32(i % TwoTo32)
  }

  /** The decimal digits of n as `%d` writes them: no leading zero, "0" for zero. */
  function Digits(n: nat): (s: seq<Byte>)
    ensures 1 <= |s| <= n + 1
    ensures forall j :: 0 <= j < |s| ==> Zero <= s[j] <= Zero + 9
    ensures |s| > 1 ==> s[0] != Zero
  {
    if n < 10 then [Zero + n] else Digits(n / 10) + [Zero + n % 10]
  }

  /** `%d` of an int: a '-' in front of the digits of a negative number. */
  function Decimal(i: int): (s: seq<Byte>)
    ensures 1 <= |s|
    ensures forall j :: 0 < j < |s| ==> s[j] != Minus
  {
    if i < 0 then [Minus] + Digits(-i) else Digits(i)
  }

  /** The number a string of decimal digits spells (its partner: reading `%d` back). */
  function DigitsValue(s: seq<Byte>): (n: nat)
  {
    if s == [] then 0
    else DigitsValue(s[..|s| - 1]) * 10 + (if s[|s| - 1] >= Zero then s[|s| - 1] - Zero else 0)
  }

  /** The number a possibly signed decimal string spells. */
  function DecimalValue(s: seq<Byte>): (i: int)
  {
    if |s| > 0 && s[0] == Minus then -(DigitsValue(s[1..]) as int) else DigitsValue(s)
  }

  /** `MockValueInt(i)`: "value-for-" and the decimal form of i. */
  function MockValueInt(i: int): (v: seq<Byte>)
    ensures |v| == |ValuePrefix| + |Decimal(i)|
  {
    ValuePrefix + Decimal(i)
  }

  /** `MockMultiValueInt(i, k)`: "value-for-", the decimal form of i, '-', the decimal form of k. */
  function MockMultiValueInt(i: int, k: int): (v: seq<Byte>)
    ensures |v| == |ValuePrefix| + |Decimal(i)| + 1 + |Decimal(k)|
  {
    ValuePrefix + Decimal(i) + [Minus] + Decimal(k)
  }

  /** `MockValueForMockKey(key)`: the value for the integer the first four bytes of key spell (Go panics on fewer). */
  function MockValueForMockKey(key: seq<Byte>): (v: seq<Byte>)
    requires |key| >= 4
    ensures |v| >= |ValuePrefix|
    ensures ValueNumber(v) == Uint32(key)
    ensures key[..4] == MockKeyInt(ValueNumber(v))
  {
    MockValueRoundTrip(Uint32(key));
    PutOfUint32(key[..4]);
    MockValueInt(Uint32(key))
  }

  /** The number a mock value was made for: the partner of MockValueInt. */
  function ValueNumber(v: seq<Byte>): (i: int)
    requires |v| >= |ValuePrefix|
  {
    DecimalValue(v[|ValuePrefix|..])
  }

  /** Reading back the digits of n gives n. */
  lemma {:induction false} DigitsRoundTrip(n: nat)
    ensures DigitsValue(Digits(n)) == n
    decreases n
  {
    if n >= 10 {
      var s := Digits(n);
      DigitsRoundTrip(n / 10);
      assert s[..|s| - 1] == Digits(n / 10);
    }
  }

  /** Reading back the decimal form of i gives i. */
  lemma {:induction false} DecimalRoundTrip(i: int)
    ensures DecimalValue(Decimal(i)) == i
  {
    if i < 0 {
      DigitsRoundTrip(-i);
      assert Decimal(i)[1..] == Digits(-i);
    } else {
      DigitsRoundTrip(i);
    }
  }

  /** The value made for i names i: MockValueInt loses nothing. */
  lemma {:induction false} MockValueRoundTrip(i: int)
    ensures ValueNumber(MockValueInt(i)) == i
  {
    assert MockValueInt(i)[|ValuePrefix|..] == Decimal(i);
    DecimalRoundTrip(i);
  }

  /** Distinct numbers get distinct values. */
  lemma {:induction false} MockValueInjective(i: int, j: int)
    ensures MockValueInt(i) == MockValueInt(j) <==> i == j
  {
    MockValueRoundTrip(i);
    MockValueRoundTrip(j);
  }

  /** Two ints have the same decimal form exactly when they are equal. */
  lemma {:induction false} DecimalInjective(i: int, j: int)
    ensures Decimal(i) == Decimal(j) <==> i == j
  {
    DecimalRoundTrip(i);
    DecimalRoundTrip(j);
  }

  /** Where the parts of a multi-mode value sit: i's digits, then '-', then k's digits. */
  lemma {:induction false} MultiValueLayout(i: int, k: int)
    ensures var v, p, a := MockMultiValueInt(i, k), |ValuePrefix|, Decimal(i);
      && v[p..p + |a|] == a
      && v[p + |a|] == Minus
      && v[p + |a| + 1..] == Decimal(k)
  {
    SeparatedLayout(ValuePrefix, Decimal(i), Minus, Decimal(k));
  }

  /** Where the parts of `x + a + [m] + d` sit. */
  lemma {:induction false} SeparatedLayout(x: seq<Byte>, a: seq<Byte>, m: Byte, d: seq<Byte>)
    ensures var v := x + a + [m] + d;
      && v[|x|..|x| + |a|] == a
      && v[|x| + |a|] == m
      && v[|x| + |a| + 1..] == d
  {
    var v := x + a + [m] + d;
    assert v == (x + a) + ([m] + d);
    assert v[..|x| + |a|] == x + a;
    assert v[|x|..|x| + |a|] == (x + a)[|x|..];
    assert v[|x| + |a|..] == [m] + d;
  }

  /** A multi-mode value and a string that agrees with it up to p + |Decimal(i)| and has a digit there differ. */
  lemma {:induction false} MultiValueDiffers(i: int, k: int, w: seq<Byte>, d: seq<Byte>)
    requires |ValuePrefix| + |Decimal(i)| < |w|
    requires |d| > |Decimal(i)| && w[|ValuePrefix| + |Decimal(i)|] == d[|Decimal(i)|]
    requires forall j :: 0 < j < |d| ==> d[j] != Minus
    ensures MockMultiValueInt(i, k) != w
  {
    MultiValueLayout(i, k);
  }

  /** Multi-mode values are distinct for distinct (i, k), and never equal a single-mode value. */
  lemma {:induction false} MockMultiValueDistinct(i: int, k: int, i2: int, k2: int, j: int)
    ensures MockMultiValueInt(i, k) == MockMultiValueInt(i2, k2) <==> i == i2 && k == k2
    ensures MockMultiValueInt(i, k) != MockValueInt(j)
  {
    var p := |ValuePrefix|;
    var a, b := Decimal(i), Decimal(i2);
    var u, w := MockMultiValueInt(i, k), MockMultiValueInt(i2, k2);
    MultiValueLayout(i, k);
    MultiValueLayout(i2, k2);
    if |a| < |b| {
      assert w[p..p + |b|][|a|] == b[|a|];
      MultiValueDiffers(i, k, w, b);
    } else if |b| < |a| {
      assert u[p..p + |a|][|b|] == a[|b|];
      MultiValueDiffers(i2, k2, u, a);
    } else if u == w {
      DecimalInjective(i, i2);
      DecimalInjective(k, k2);
    }
    var v, d := MockValueInt(j), Decimal(j);
    assert v[p..] == d;
    if |a| < |d| {
      assert v[p..][|a|] == d[|a|];
      MultiValueDiffers(i, k, v, d);
    }
  }

  /** For every i in uint32 range, MockKeyInt holds i and MockValueForMockKey decodes it back to i's value. */
  lemma {:induction false} MockKeyRoundTrip(i: int)
    requires 0 <= i < TwoTo32
    ensures Uint32(MockKeyInt(i)) == i
    ensures MockValueForMockKey(MockKeyInt(i)) == MockValueInt(i)
  {
    Uint32OfPut(i);
  }

  /** Keys past the uint32 range wrap around: i and i + 2^32 get the same key. */
  lemma {:induction false} MockKeyWraps(i: int)
    ensures MockKeyInt(i + TwoTo32) == MockKeyInt(i)
  {
    assert (i + TwoTo32) % TwoTo32 == i % TwoTo32;
  }

  /** Within the uint32 range, distinct integers get distinct keys. */
  lemma {:induction false} MockKeyInjective(i: int, j: int)
    requires 0 <= i < TwoTo32 && 0 <= j < TwoTo32
    ensures MockKeyInt(i) == MockKeyInt(j) <==> i == j
  {
  }

  /** Within the uint32 range, byte order of the keys is numeric order of the integers. */
  lemma {:induction false} MockKeyOrder(i: int, j: int)
    requires 0 <= i < TwoTo32 && 0 <= j < TwoTo32
    ensures Less(MockKeyInt(i), MockKeyInt(j)) <==> i < j
    ensures MockKeyInt(i) == MockKeyInt(j) <==> i == j
  {
    SameWidthOrder(MockKeyInt(i), MockKeyInt(j));
  }

  /** The pairs `WriteMockIntPairs` writes for key number i. */
  function PairsFor(i: int, multi: bool): (ps: seq<Record>)
    ensures |ps| == if multi && i % 2 == 1 then 3 else 1
    ensures forall j :: 0 <= j < |ps| ==> ps[j].key == MockKeyInt(i)
  {
    if multi && i % 2 == 1 then
      [Record(MockKeyInt(i), MockMultiValueInt(i, 0)),
       Record(MockKeyInt(i), MockMultiValueInt(i, 1)),
       Record(MockKeyInt(i), MockMultiValueInt(i, 2))]
    else
      [Record(MockKeyInt(i), MockValueInt(i))]
  }

  /**
   * The values `WriteMockIntPairs` writes under key number i, in order. They
   * are listed here apart from `PairsFor`, as the values a test expects to read
   * back; `PairsForValues` checks the pairs against this list.
   */
  function ValuesOf(i: int, multi: bool): (vs: seq<seq<Byte>>)
  {
    if multi && i % 2 == 1 then [MockMultiValueInt(i, 0), MockMultiValueInt(i, 1), MockMultiValueInt(i, 2)]
    else [MockValueInt(i)]
  }

  /** Every pair `WriteMockIntPairs` writes for key numbers 0 .. n - 1, in write order (none for n <= 0). */
  function MockPairs(n: int, multi: bool): (ps: seq<Record>)
    ensures |ps| >= n
    decreases n
  {
    if n <= 0 then [] else MockPairs(n - 1, multi) + PairsFor(n - 1, multi)
  }

  /** keyCount pairs, plus two more for every odd key in multi mode. */
  lemma {:induction false} MockPairsCount(n: nat, multi: bool)
    ensures |MockPairs(n, multi)| == n + (if multi then 2 * (n / 2) else 0)
  {
    if n > 0 {
      MockPairsCount(n - 1, multi);
      assert |MockPairs(n, multi)| == |MockPairs(n - 1, multi)| + |PairsFor(n - 1, multi)|;
      if (n - 1) % 2 == 1 {
        assert n / 2 == (n - 1) / 2 + 1;
      } else {
        assert n / 2 == (n - 1) / 2;
      }
    }
  }

  /** One more key number adds its pairs at the end. */
  lemma {:induction false} MockPairsNext(i: int, multi: bool)
    requires 0 <= i
    ensures MockPairs(i + 1, multi) == MockPairs(i, multi) + PairsFor(i, multi)
  {
  }

  /** MockPairsNext after earlier pairs `pre`. */
  lemma {:induction false} MockPairsNextAfter(pre: seq<Record>, i: int, multi: bool)
    requires 0 <= i
    ensures pre + MockPairs(i + 1, multi) == pre + MockPairs(i, multi) + PairsFor(i, multi)
  {
    MockPairsNext(i, multi);
    assert pre + (MockPairs(i, multi) + PairsFor(i, multi)) == pre + MockPairs(i, multi) + PairsFor(i, multi);
  }

  /** The pairs for fewer keys are the start of the pairs for more. */
  lemma {:induction false} MockPairsPrefix(i: int, n: int, multi: bool)
    requires i <= n
    ensures |MockPairs(i, multi)| <= |MockPairs(n, multi)|
    ensures MockPairs(n, multi)[..|MockPairs(i, multi)|] == MockPairs(i, multi)
    decreases n - i
  {
    if i < n {
      MockPairsPrefix(i, n - 1, multi);
      if n > 0 {
        var before := MockPairs(n - 1, multi);
        assert MockPairs(n, multi)[..|before|] == before;
        assert MockPairs(n, multi)[..|MockPairs(i, multi)|] == before[..|MockPairs(i, multi)|];
      }
    }
  }

  /** Every key written for numbers below n < 2^32 sorts before MockKeyInt(n). */
  lemma {:induction false} MockPairsBelow(n: int, multi: bool)
    requires n < TwoTo32
    ensures forall j :: 0 <= j < |MockPairs(n, multi)| ==> Less(MockPairs(n, multi)[j].key, MockKeyInt(n))
    decreases n
  {
    if n > 0 {
      var init, last := MockPairs(n - 1, multi), PairsFor(n - 1, multi);
      MockPairsBelow(n - 1, multi);
      MockKeyOrder(n - 1, n);
      forall j | 0 <= j < |init|
        ensures Less(init[j].key, MockKeyInt(n))
      {
        LessTransitive(init[j].key, MockKeyInt(n - 1), MockKeyInt(n));
      }
    }
  }

  /** Every key written is a 4-byte key. */
  lemma {:induction false} MockPairsKeys(n: int, multi: bool)
    ensures forall j :: 0 <= j < |MockPairs(n, multi)| ==> |MockPairs(n, multi)[j].key| == 4
    decreases n
  {
    if n > 0 {
      MockPairsKeys(n - 1, multi);
      var init, last := MockPairs(n - 1, multi), PairsFor(n - 1, multi);
      assert forall j :: 0 <= j < |init + last| ==> (init + last)[j] == if j < |init| then init[j] else last[j - |init|];
    }
  }

  /** For fewer than 2^31 keys every pair fits the u32 length fields of a block. */
  lemma {:induction false} MockPairsFit(n: int, multi: bool)
    requires n < 0x8000_0000
    ensures AllFit(MockPairs(n, multi))
    decreases n
  {
    if n > 0 {
      MockPairsFit(n - 1, multi);
      PairsForFit(n - 1, multi);
      var init, last := MockPairs(n - 1, multi), PairsFor(n - 1, multi);
      assert forall j :: 0 <= j < |init + last| ==> (init + last)[j] == if j < |init| then init[j] else last[j - |init|];
    }
  }

  /** The pairs for one key number below 2^31 fit the u32 length fields. */
  lemma {:induction false} PairsForFit(i: int, multi: bool)
    requires 0 <= i < 0x8000_0000
    ensures AllFit(PairsFor(i, multi))
  {
    assert |Decimal(i)| <= i + 1;
    assert |Decimal(2)| == 1 && |Decimal(1)| == 1 && |Decimal(0)| == 1;
  }

  /** For at most 2^32 keys the pairs are written in key order. */
  lemma {:induction false} MockPairsSorted(n: int, multi: bool)
    requires n <= TwoTo32
    ensures Sorted(MockPairs(n, multi))
    decreases n
  {
    if n > 0 {
      var init, last := MockPairs(n - 1, multi), PairsFor(n - 1, multi);
      var all := MockPairs(n, multi);
      MockPairsSorted(n - 1, multi);
      MockPairsBelow(n - 1, multi);
      CompareZeroIffEqual(MockKeyInt(n - 1), MockKeyInt(n - 1));
      forall a, b | 0 <= a < b < |all|
        ensures LessEq(all[a].key, all[b].key)
      {
        if b < |init| {
          assert all[a] == init[a] && all[b] == init[b];
        } else if a < |init| {
          assert all[a] == init[a] && all[b] == last[b - |init|];
        } else {
          assert all[a] == last[a - |init|] && all[b] == last[b - |init|];
        }
      }
    }
  }

  /** Under MockKeyInt(i), the pairs for n keys hold exactly i's values if i < n, and nothing otherwise. */
  lemma {:induction false} MockPairsValues(n: int, multi: bool, i: int)
    requires n <= TwoTo32 && 0 <= i < TwoTo32
    ensures ValuesFor(MockPairs(n, multi), MockKeyInt(i)) == if 0 <= i < n then ValuesOf(i, multi) else []
    decreases n
  {
    if n > 0 {
      var before := ValuesFor(MockPairs(n - 1, multi), MockKeyInt(i));
      MockPairsValues(n - 1, multi, i);
      ValuesOfNext(n - 1, multi, i);
      if i == n - 1 {
        assert before == [];
        assert before + ValuesOf(i, multi) == ValuesOf(i, multi);
      } else {
        assert before + [] == before;
      }
    }
  }

  /** The pairs for key number j add i's values under MockKeyInt(i) if i == j, and nothing otherwise. */
  lemma {:induction false} ValuesOfNext(j: int, multi: bool, i: int)
    requires 0 <= j < TwoTo32 && 0 <= i < TwoTo32
    ensures ValuesFor(MockPairs(j + 1, multi), MockKeyInt(i)) ==
      ValuesFor(MockPairs(j, multi), MockKeyInt(i)) + if i == j then ValuesOf(i, multi) else []
  {
    MockPairsNext(j, multi);
    ValuesForAppend(MockPairs(j, multi), PairsFor(j, multi), MockKeyInt(i));
    MockKeyInjective(j, i);
    if i == j {
      PairsForValues(i, multi);
    } else {
      ValuesForAbsent(PairsFor(j, multi), MockKeyInt(i));
    }
  }

  /** The pairs written for key number i hold, under its key, exactly its values. */
  lemma {:induction false} PairsForValues(i: int, multi: bool)
    ensures ValuesFor(PairsFor(i, multi), MockKeyInt(i)) == ValuesOf(i, multi)
  {
    var ps, k := PairsFor(i, multi), MockKeyInt(i);
    if multi && i % 2 == 1 {
      assert ps[1..][1..][1..] == [];
      assert ValuesFor(ps[1..][1..], k) == [ps[2].value];
      assert ValuesFor(ps[1..], k) == [ps[1].value, ps[2].value];
    } else {
      assert ps[1..] == [];
    }
  }

  /** What a failed `Writer.Write` reports: the pair it could not write. */
  datatype WriteError = WriteFailed(pair: Record)

  /**
   * The writer as `WriteMockIntPairs` sees it: the pairs written so far and
   * whether it was closed. A write may fail for reasons outside this model.
   */
  class Writer {
    var pairs: seq<Record>
    var closed: bool

    constructor ()
      ensures pairs == [] && !closed
    {
      pairs, closed := [], false;
    }

    /** Appends the pair, or fails and leaves the writer as it was. */
    method Write(key: seq<Byte>, value: seq<Byte>) returns (err: Option<WriteError>)
      modifies this
      ensures closed == old(closed)
      ensures err.None? ==> pairs == old(pairs) + [Record(key, value)]
      ensures err.Some? ==> pairs == old(pairs) && err.value == WriteFailed(Record(key, value))
    {
      var fail: bool :| true;
      if fail {
        err := Some(WriteFailed(Record(key, value)));
      } else {
        pairs := pairs + [Record(key, value)];
        err := None;
      }
    }

    method Close()
      modifies this
      ensures closed && pairs == old(pairs)
    {
      closed := true;
    }
  }

  /**
   * A run of writes meant to append `ps` after `pre` stopped at a failed
   * write: the writer holds `pre` and the pairs of `ps` before the failed
   * one, and the error names the pair that follows them.
   */
  predicate FailedAt(pre: seq<Record>, now: seq<Record>, ps: seq<Record>, e: WriteError)
  {
    var k := |now| - |pre|;
    && 0 <= k < |ps|
    && now == pre + ps[..k]
    && e == WriteFailed(ps[k])
  }

  /** A write that fails among the pairs for key number i < n fails among the pairs for n keys. */
  lemma {:induction false} FailurePoint(pre: seq<Record>, now: seq<Record>, i: int, n: int, multi: bool, e: WriteError)
    requires 0 <= i < n
    requires FailedAt(pre + MockPairs(i, multi), now, PairsFor(i, multi), e)
    ensures FailedAt(pre, now, MockPairs(n, multi), e)
  {
    MockPairsStart(i, n, multi);
    FailedWithin(pre, now, MockPairs(i, multi), PairsFor(i, multi), MockPairs(n, multi), e);
  }

  /** The pairs for n > i keys start with the pairs for i keys and then those for key number i. */
  lemma {:induction false} MockPairsStart(i: int, n: int, multi: bool)
    requires 0 <= i < n
    ensures var upto := MockPairs(i, multi) + PairsFor(i, multi);
      |upto| <= |MockPairs(n, multi)| && MockPairs(n, multi)[..|upto|] == upto
  {
    MockPairsPrefix(i + 1, n, multi);
    MockPairsNext(i, multi);
  }

  /** Failing among the pairs `here` that follow `init` at the start of `ps` is failing among `ps`. */
  lemma {:induction false} FailedWithin(pre: seq<Record>, now: seq<Record>, init: seq<Record>, here: seq<Record>, ps: seq<Record>, e: WriteError)
    requires |init| + |here| <= |ps| && ps[..|init| + |here|] == init + here
    requires FailedAt(pre + init, now, here, e)
    ensures FailedAt(pre, now, ps, e)
  {
    var k := |now| - |pre + init|;
    PrefixAt(ps, init, here, k);
    assert now == pre + (init + here[..k]);
  }

  /** In a sequence that starts with `init + here`, the k-th element of `here` follows `init` and `here[..k]`. */
  lemma {:induction false} PrefixAt<T>(ps: seq<T>, init: seq<T>, here: seq<T>, k: nat)
    requires |init| + |here| <= |ps| && ps[..|init| + |here|] == init + here
    requires k < |here|
    ensures var j := |init| + k;
      && j < |ps|
      && ps[..j] == init + here[..k]
      && ps[j] == here[k]
  {
    var upto, j := init + here, |init| + k;
    assert ps[j] == ps[..|upto|][j] == upto[j];
    assert ps[..j] == ps[..|upto|][..j] == upto[..j];
    assert upto[..j] == init + here[..k];
  }

  /**
   * One turn of the loop of `WriteMockIntPairs`: the pairs for key number i,
   * three in multi mode for an odd i, one otherwise, stopping at the first
   * failed write.
   */
  method WriteKeyPairs(w: Writer, i: int, multi: bool) returns (err: Option<WriteError>)
    modifies w
    ensures w.closed == old(w.closed)
    ensures err.None? ==> w.pairs == old(w.pairs) + PairsFor(i, multi)
    ensures err.Some? ==> FailedAt(old(w.pairs), w.pairs, PairsFor(i, multi), err.value)
  {
    var ps := PairsFor(i, multi);
    if multi && i % 2 == 1 {
      var k := 0;
      while k < 3
        invariant 0 <= k <= 3
        invariant w.pairs == old(w.pairs) + ps[..k]
        invariant w.closed == old(w.closed)
      {
        err := w.Write(MockKeyInt(i), MockMultiValueInt(i, k));
        if err.Some? {
          return;
        }
        assert ps[..k + 1] == ps[..k] + [ps[k]];
        k := k + 1;
      }
      assert ps[..3] == ps;
    } else {
      err := w.Write(MockKeyInt(i), MockValueInt(i));
      if err.Some? {
        assert ps[..0] == [];
        return;
      }
    }
    err := None;
  }

  /** Before the first key, the writer holds what it held. */
  lemma {:induction false} NoPairsYet(pre: seq<Record>, multi: bool)
    ensures pre + MockPairs(0, multi) == pre
  {
    assert MockPairs(0, multi) == [];
  }

  /** When the loop of `WriteMockIntPairs` stops, it has written the pairs for all keyCount keys. */
  lemma {:induction false} LoopDone(i: int, keyCount: int, multi: bool)
    requires 0 <= i && (i <= keyCount || i == 0) && !(i < keyCount)
    ensures MockPairs(i, multi) == MockPairs(keyCount, multi)
  {
  }

  /**
   * `WriteMockIntPairs`: writes the pairs for keys 0 .. keyCount - 1 in order
   * and then closes the writer; the first failed write ends it with that
   * write's error, after the pairs before it and without closing.
   */
  method WriteMockIntPairs(w: Writer, keyCount: int, progress: bool, multi: bool) returns (err: Option<WriteError>)
    modifies w
    ensures err.None? ==> w.pairs == old(w.pairs) + MockPairs(keyCount, multi) && w.closed
    ensures err.Some? ==> FailedAt(old(w.pairs), w.pairs, MockPairs(keyCount, multi), err.value) && w.closed == old(w.closed)
  {
    var i := 0;
    NoPairsYet(old(w.pairs), multi);
    while i < keyCount
      invariant 0 <= i && (i <= keyCount || i == 0)
      invariant w.pairs == old(w.pairs) + MockPairs(i, multi)
      invariant w.closed == old(w.closed)
    {
      err := WriteKeyPairs(w, i, multi);
      if err.Some? {
        FailurePoint(old(w.pairs), w.pairs, i, keyCount, multi, err.value);
        return;
      }
      MockPairsNextAfter(old(w.pairs), i, multi);
      i := i + 1;
    }
    LoopDone(i, keyCount, multi);
    w.Close();
    return None;
  }
}

=== FILE: wrappers.dfy ===
/** Option and Result values, used wherever the Go code returns nil or an error. */
module Wrappers {

  datatype Option<+T> = None | Some(value: T)

  datatype Result<+T, +E> = Ok(value: T) | Err(error: E)
}
